=== FILE: README.md ===
# NVDA Chat: a Dafny model of the client's bookkeeping and the relay server's state

NVDA Chat is a chat add-on for the NVDA screen reader. It has two parts:

- the client, which is the add-on;
- a small Flask/Socket.IO relay server, which keeps accounts, friend lists and conversations but not messages.

The client keeps messages in one plain-text ledger file per conversation.

This project models the logic of both parts that is not input/output. It is written as pure functions over immutable data.

| module | file | what it models |
|---|---|---|
| `Wrappers` | wrappers.dfy | `Option` and `Result` |
| `Text` | text.dfy | the Python string operations the code relies on: `isspace`, `strip`, `find`, `split`, `split(sep, 1)` and `join` |
| `Lists` | lists.dfy | `list.remove` (first occurrence) and lists without repeats |
| `Json` | json.dfy | decoded JSON values |
| `Domain` | domain.dfy | user and chat ids, the chat `type`, HTTP errors |
| `Ledger` | ledger.dfy | the line written by `save_message_locally`; how `load_messages_locally` reads a file back: line iteration, strip, the `" ; "` split, sender and text, and the message limit |
| `Directory` | directory.dfy | the client's chat cache and `get_chat_name`, which names a conversation's ledger file |
| `Connection` | connection.dfy | `connect`, `_connect_thread`'s outcomes, `schedule_reconnect`, `on_ws_open`, `on_ws_close` and `disconnect` as transitions over (connected, socket, reconnect count, manual flag) |
| `Config` | config.dfy | `DEFAULT_CONFIG` and `loadConfig`'s defaults-then-saved merge |
| `Dispatch` | dispatch.dfy | `on_ws_message`'s frame filter; the `new_message`, `user_online` and `user_offline` branches of `handle_message`; what `load_chats` does to the cache; `load_messages_locally` |
| `ChatWindow` | chatwindow.dfy | the Page Up / Page Down history cursor; the `/me` prefix of an outgoing message; `toggle_mute` |
| `Friends` | friends.dfy | the server's friend lists and `add_friend`, `accept_friend`, `reject_friend`, `delete_friend` and `get_friends` |
| `Registry` | registry.dfy | the server's `chats.json`: `create_chat`, `delete_chat`, the group member, rename, transfer and delete operations, and `get_chats` with its admin migration |
| `Sessions` | sessions.dfy | the server's `online_users` / `user_sessions` maps in `handle_authenticate` and `handle_disconnect` |

**Modelling choices:**

- Clocks, generated ids, the token check and JSON decoding are parameters.
- Python dictionaries whose iteration order matters are modelled with their key order. The chat registry keeps an explicit insertion-order list. `get_friends` and the online notifications take the friend list's key order as a parameter.
- Work that the client hands to threads and timers comes back as data: `Effect`s and `Notice`s in `Connection`, and a reload count and an alert flag in `Dispatch`.

**Line ends on disk.** A ledger file is modelled as the text Python writes and reads. On Windows, text mode writes each `\n` as `\r\n` and reads it back as `\n`, so `Ledger.ReadLines` sees the same lines (it also splits on `\r\n` itself).

**The round trip needs conditions on the record.** A ledger line reads back as the same record only under the conditions collected in `Ledger.Storable`:
- the sender has no whitespace and no `;`;
- an action's sender is non-empty;
- the text has no line break, does not end in `" ;"` and is not `";"`;
- an action's text has no `"; "`;
- the timestamp is non-empty, has no line break and no `" ; "`, and does not end in whitespace.

The text conditions come from how `str.split(' ; ')` scans for the separator: it takes the leftmost, non-overlapping occurrences.

**When the attempts run out.** The code's own comments promise that the user hears about a lost connection once all attempts are exhausted (`__init__.py:484`). `schedule_reconnect` leaves that announcement to `on_ws_close` (`__init__.py:390`). `Connection.ScheduleReconnect` and the other transitions follow what the code does:
- A failed login says "Timeout" or "Server unreachable" only on the first attempt, when the count is 0. It says nothing when the attempts run out.
- "Connection lost" comes only from `on_ws_close` at the limit (`Connection.SocketClosed`). A run of failed logins therefore ends in silence (`Connection.FreshTimeoutRun`, `Connection.OpenedThenDropped`).

This gap is listed under "## Findings". `Connection.ScheduleReconnectFixed` is the corrected scheduling.

## Model

| member | source | states |
|---|---|---|
| Text.TrimStart | __init__.py:742 | drops the leading whitespace (Python `isspace` set) and nothing else: the result is a suffix, the dropped part is all whitespace, the result does not start with whitespace |
| Text.TrimEnd | __init__.py:742 | drops the trailing whitespace and nothing else: the result is a prefix, the dropped part is all whitespace, the result does not end with whitespace |
| Text.Strip | __init__.py:742 | the result is no longer than the input and neither starts nor ends with whitespace |
| Text.StripOfTrimmed | __init__.py:742 | a string that neither starts nor ends with whitespace is its own strip |
| Text.Split | __init__.py:750 | joining the parts with the separator gives the input back, and no part contains the separator |
| Text.SplitOnce | __init__.py:757 | when the separator occurs, the input is the head, the separator and the tail, with no separator in the head (its first occurrence) |
| Text.SplitAround | __init__.py:750-753 | splitting `a + " ; " + b`, where `b` holds no `" ; "` and `a` does not end in `" ;"`, gives the parts of `a` followed by `b`, so the last field is `b` |
| Lists.RemoveFirst | __init__.py:1698 | removes one occurrence: length drops by one and the multiset loses exactly that element |
| Lists.RemoveFirstDistinct | __init__.py:1698 | on a list without repeats, removing an element leaves it absent and keeps the list without repeats |
| Lists.RemoveFirstOthers | __init__.py:1698 | every other element keeps its membership |
| Ledger.FormatLine | __init__.py:700-705 | the written line is the record's body followed by one `\n` |
| Ledger.Append | __init__.py:707-709 | the file grows by exactly that line; a file of whole lines stays one |
| Ledger.ReadLines | __init__.py:740-741 | text-mode line iteration yields lines without line breaks |
| Ledger.ReadLinesAppend | __init__.py:740-741 | reading a file of whole lines followed by more text reads each part in turn |
| Ledger.ParseContent | __init__.py:755-763 | a content with `"; "` is a regular message split at its first `"; "`; otherwise an action split at its first space (empty text when there is none) |
| Ledger.ParseLine | __init__.py:742-770 | a line gives a record iff, once stripped, it contains `" ; "`; the timestamp is the last field and holds no `" ; "` |
| Ledger.JunkLine | __init__.py:742-751 | a blank line, or one without `" ; "`, gives no record |
| Ledger.SkippedLine | __init__.py:742-751 | such a line contributes nothing to the loaded list wherever it sits |
| Ledger.ParseFormatted | __init__.py:748-770 | round trip of one line: parsing the line written for a storable record gives back the same sender, text, kind and timestamp |
| Ledger.ParseContentOfRecord | __init__.py:755-763 | the content of a storable record reads back as its sender, text and kind |
| Ledger.BodyIsStripped | __init__.py:742 | a storable record's line is unchanged by `strip` |
| Ledger.LineThenParse | __init__.py:741-770 | a file starting with a storable record's line loads as that record followed by the rest |
| Ledger.AppendThenParse | __init__.py:707-709 | appending a storable message to a file of whole lines adds exactly that record at the end of what loads |
| Ledger.RenderThenParse | __init__.py:741-770 | round trip of a whole file: a ledger built by appending storable records loads as exactly those records in order |
| Ledger.Recent | __init__.py:774-778 | for a positive limit, the newest `limit` records in file order; limit 0 keeps all; a negative limit drops a prefix (Python slice semantics) |
| Ledger.RecentEndsWith | __init__.py:776-778 | with a positive limit, what is kept ends with the newest message |
| Ledger.AppendThenShown | __init__.py:707-709 | with a positive limit, the history loaded after appending a storable message ends with that message |
| Ledger.MergedThenShown | __init__.py:740-778 | whole lines moved onto the end of a ledger file load after that file's records, so a message appended to them is still shown last |
| Ledger.MovedThenShown | __init__.py:740-778 | a message appended to a file is shown last whether the file is read in place or moved onto the end of another file of whole lines |
| Ledger.LoadKeepsNewest | __init__.py:774-778 | loading a ledger of storable records with limit n returns exactly the last min(n, count) records |
| Directory.FirstOther | __init__.py:720-721 | the index of the first participant who is not the local user, or none when all are |
| Directory.ChatName | __init__.py:714-723 | the chat's own name; else for a private chat the first other participant or `Unknown`; else, or for an unknown chat, the id |
| Directory.SameFileIffSameName | __init__.py:686-688 | two conversations write to the same ledger file exactly when they have the same name: the file is keyed by the display name, never by the id |
| Directory.SharedLedgerFile | __init__.py:714-723 | any conversation named after a contact (a group, say) writes into the same file as the unnamed private chat whose first other participant is that contact |
| Directory.ChatNameLocal | __init__.py:714-723 | the file name of a chat depends only on that chat's cached kind, name and participants |
| Connection.RetryAfterRunSilent | __init__.py:351-391 | `connect` starts the login thread but keeps the counter: after a run of timed-out logins has used up the attempts, a connect the user asks for that times out again says nothing and is not retried |
| Connection.ScheduleReconnect | __init__.py:388-394 | as written: below the limit the count goes up by one and a connect is scheduled after delay×1000 ms; at or above it nothing changes and nothing is said |
| Connection.LoginDone | __init__.py:359-386 | corrected: success resets the count and speaks only when not reconnecting; timeout or unreachable speaks only on the first attempt and reschedules unless manual; a rejection says "Login failed" and any other error says `Failed`; neither reschedules |
| Connection.LoginDoneAsWritten | __init__.py:386 | as written: any other error changes nothing and says nothing, because the deferred lambda reads the exception name after Python has unbound it; every other outcome is as in `LoginDone` |
| Connection.ErrorUnheard | __init__.py:386 | an unexpected login error is silent and not retried at any count, where the corrected handler says `Failed` |
| Connection.OpenedThenDropped | __init__.py:426-436 | an opened socket resets the count, so when it drops and the server stays unreachable the client makes exactly `reconnect_attempts` more logins, all silent, and ends at the limit without a word |
| Connection.SocketClosed | __init__.py:470-485 | connected and socket clear; "Connection lost" is said iff not manual and the count reached the limit; otherwise a silent reschedule unless manual |
| Connection.Disconnect | __init__.py:487-506 | manual flag set, disconnected, socket closed iff one is held, chat list cleared, "Disconnected" unless silent |
| Connection.AllKeepValid | __init__.py:388-394 | every transition keeps 0 ≤ count ≤ max(limit, 0) |
| Connection.ScheduleIdempotentAtLimit | __init__.py:389-391 | at the limit, scheduling again changes nothing |
| Connection.TimeoutRunNotices | __init__.py:378-381 | in a run of timed-out logins only the first attempt speaks |
| Connection.TimeoutRunAttempts | __init__.py:378-394 | a run of timed-out logins makes one attempt plus one per remaining reconnect |
| Connection.FreshTimeoutRun | __init__.py:378-394 | from a fresh start, limit+1 attempts, a single "Timeout", the count ends at the limit, no "Connection lost" |
| Connection.ScheduleReconnectFixed | __init__.py:388-394 | corrected: below the limit it is `schedule_reconnect`; at the limit, unless the user disconnected, it says "Connection lost" once and schedules nothing |
| Connection.LoginDoneFixed | __init__.py:376-385 | corrected: a timeout or an unreachable server retries through the corrected scheduling, so at the limit "Connection lost" follows the attempt's own notice; every other outcome is `LoginDone` |
| Connection.TimeoutRunFixedNotices | __init__.py:376-394 | with the correction, a run of failed logins says "Timeout" on its first attempt (if it starts at 0) and "Connection lost" exactly once, at its end |
| Connection.TimeoutRunFixedAttempts | __init__.py:376-394 | the correction changes only what is said: the corrected run makes as many attempts as the original and ends in the same state |
| Connection.FreshTimeoutRunFixed | __init__.py:376-394 | from a fresh start the corrected client makes limit+1 attempts and says exactly "Timeout", then "Connection lost" |
| Connection.DroppedThenAnnounced | __init__.py:474-484 | with the correction, a socket that opened and dropped, followed by failed logins, ends with "Connection lost" said once, after `reconnect_attempts` attempts |
| Connection.ClosedThenScheduled | __init__.py:481-482 | a socket closing below the limit leads to one counted reconnect, silently |
| Connection.QuietReconnect | __init__.py:366-371 | a successful login after reconnecting is silent and resets the count |
| Config.Defaults | __init__.py:31-67 | the default values of the settings the model reads (reconnect 10 attempts, 5 s, 100 messages, saving on, no muted chats) |
| Config.Overlay | __init__.py:169 | `dict.update` with a dict: keys of both; the saved value wins; other defaults stay |
| Config.PairsUpdate | __init__.py:169 | `dict.update` with a list of pairs never loses a key |
| Config.PairsInOrder | __init__.py:169 | one pair sets its key; a later pair for the same key overrides an earlier one |
| Config.LoadConfig | __init__.py:160-178 | a saved object is overlaid on the defaults; no file, or a failed write-back, gives the defaults; every default key is present |
| Config.SavedWins | __init__.py:166-169 | a saved setting wins over its default |
| Config.DefaultKept | __init__.py:166-169 | a default the file does not mention keeps its value |
| Config.LoadAgain | __init__.py:171-175 | loading the written-back settings again gives the same settings |
| Config.ReconnectAttemptsPresent | __init__.py:389 | `reconnect_attempts` is always present, so the fallbacks 5 and 3 are never used |
| Dispatch.Classify | __init__.py:452-466 | `2` is answered with a pong; a `42` frame decoding to a list of two or more items is queued as (event, data); all else is dropped |
| Dispatch.Route | __init__.py:209-211 | the `new_message` branch is taken exactly for that event name |
| Dispatch.StrField | __init__.py:212-214 | a string field is missing, a string, or not a string |
| Dispatch.DecodeNewMessage | __init__.py:211-214 | a decoded message comes from an object `message` and a string `chat_id`; `is_action` is the truthiness of the field, false when missing |
| Dispatch.OnNewMessage | __init__.py:209-255 | the cached chats keep their keys; files change only by the save; a reload is requested for an admin-transfer notice and for an uncached chat; the alert sounds iff the sender is not the user and the chat is not muted |
| Dispatch.Saved | __init__.py:228-230 | with saving on, exactly one line is appended to the file the chat's name selects (a write that fails is not modelled, see below); with it off, no file changes |
| Dispatch.OwnMessagesSaved | __init__.py:228-240 | the user's own echoed messages are saved as well |
| Dispatch.SavedThenLoaded | __init__.py:228-230 | after a message is saved, its file loads as before plus that record, stamped with the local clock |
| Dispatch.LoadMessages | __init__.py:725-780 | nothing with saving off; otherwise the newest `limit` records of the chat's file |
| Dispatch.ArrivalAppends | __init__.py:228-230 | after a message arrives with saving on, the chat's file, under the name the updated chat list gives it, is the old file with the message's line appended |
| Dispatch.ArrivedThenLoaded | __init__.py:725-780 | opening a cached chat after a message arrived loads, under the history limit, the old file with that message's line appended; with `Ledger.AppendThenShown` the window shows the message last |
| Dispatch.UnreadRule | __init__.py:243-252 | the chat's unread count goes up by exactly one iff the sender is someone else and the chat is not on screen; no other chat's count moves |
| Dispatch.UnreadShown | __init__.py:249-252 | the cached entry of an unviewed chat carries its new unread count |
| Dispatch.MuteOnlySilences | __init__.py:254-258 | the mute list changes nothing in the state, only the alert |
| Dispatch.FilesStayPut | __init__.py:232-252 | the handler itself never changes which file any chat writes to; the reload it asks for may (`Dispatch.UncachedArrivalLost`) |
| Dispatch.ChatsLoaded | __init__.py:525-528 | as written: the reloaded chat list replaces the cache; the ledger files and unread counters stay as they were |
| Dispatch.UncachedArrivalLost | __init__.py:225-230 | a message for an uncached chat asks for a reload and is saved under the chat id; once the reload caches the chat under another name, opening it loads exactly what it would have loaded had the message never arrived |
| Dispatch.RenamedOnReload | __init__.py:714-723 | an unnamed private chat and a named group, once cached, are read from files named after the contact and the group, not after their ids |
| Dispatch.ChatsLoadedFixed | __init__.py:525-528 | corrected: the reload also moves the lines saved under the id of the chat that asked for it onto the end of the file its name selects; every other file stays |
| Dispatch.UncachedArrivalKept | __init__.py:225-230 | with the corrected reload, a message that arrived before its chat was cached is shown last when the chat is opened, whatever name the chat gets |
| Dispatch.TransferNoticeReloads | __init__.py:216-219 | the server's admin-transfer notice makes the client reload its chats |
| Dispatch.FindFriend | __init__.py:292-293 | the first friend entry with that name |
| Dispatch.SetPresence | __init__.py:287-303 | only the first entry for the user takes the new status; all else is unchanged |
| Dispatch.PresenceIdempotent | __init__.py:287-303 | announcing the same presence twice is the same as once |
| ChatWindow.Press | __init__.py:1368-1441 | the cursor stays in {-1} ∪ [0, n); an empty history ignores keys; Shift jumps to the oldest or newest; an announced message is the one selected |
| ChatWindow.DownUndoesUp | __init__.py:1388-1431 | Page Down undoes Page Up except at the oldest message |
| ChatWindow.UpUndoesDown | __init__.py:1388-1431 | Page Up undoes Page Down except at the end |
| ChatWindow.UpMonotone | __init__.py:1388-1392 | Page Up from the end selects the newest message, otherwise steps one back and stops at the oldest |
| ChatWindow.ShownThenBrowse | __init__.py:1330-1335 | right after the loaded messages are shown, Page Up announces the newest, Shift+Page Up the oldest, Page Down says nothing, and a message arriving next becomes the newest |
| ChatWindow.Arrived | __init__.py:1495-1512 | a new message joins the end of the history, the cursor goes to the end, and Page Up then announces it |
| ChatWindow.Compose | __init__.py:1481-1493 | `send_message` is called iff a chat is open and the stripped input is non-empty; a message goes to the open chat; a leading `/me ` marks an action and is removed; the sent text is non-empty |
| ChatWindow.ComposeAction | __init__.py:1486-1490 | `/me ` before a stripped text sends that text as an action to the open chat |
| ChatWindow.ToggleMute | __init__.py:1692-1707 | a muted id loses one occurrence; any other id is appended |
| ChatWindow.ToggleFlips | __init__.py:1692-1707 | on a list without repeats, toggling flips the id's membership and keeps the list without repeats |
| ChatWindow.ToggleOthers | __init__.py:1692-1707 | toggling one id leaves every other id's membership as it was |
| ChatWindow.ToggleTwice | __init__.py:1692-1707 | toggling twice restores every id's membership |
| Friends.Set | server/server.py:287-293 | writing one entry changes only that entry |
| Friends.Del | server/server.py:256-262 | deleting one entry removes it and changes nothing else |
| Friends.Add | server/server.py:268-303 | 400 for an empty name or oneself, 404 for an unknown user, 409 when already listed, in that order; success iff none applies, giving `pending` for the caller and `request` for the friend and nothing else |
| Friends.Accept | server/server.py:307-330 | succeeds iff the caller's entry is `request`, setting both directions to `accepted` and nothing else; otherwise 404 |
| Friends.Reject | server/server.py:334-353 | succeeds iff the caller's entry is `request`; drops it, and drops the friend's entry only if `pending`; otherwise 404 |
| Friends.Delete | server/server.py:246-264 | 400 iff the stripped name is empty; otherwise both directed entries are gone and nothing else changes |
| Friends.AddKeepsPaired | server/server.py:285-294 | a request keeps every `pending` facing a `request` and every `accepted` facing an `accepted` |
| Friends.AcceptKeepsPaired | server/server.py:316-322 | acceptance keeps the pairing |
| Friends.RejectKeepsPaired | server/server.py:341-351 | rejection keeps the pairing |
| Friends.DeleteKeepsPaired | server/server.py:253-262 | deletion keeps the pairing |
| Friends.RejectWithdraws | server/server.py:346-351 | on paired lists, rejecting also removes the asker's outgoing request |
| Friends.DeleteIdempotent | server/server.py:246-264 | deleting twice is deleting once |
| Friends.AddThenAnswer | server/server.py:268-351 | a request can be accepted (both become friends) or rejected (both entries go) by its recipient |
| Friends.Partition | server/server.py:225-235 | every listed name goes to exactly one of friends (with its presence), outgoing or incoming, by its status |
| Friends.GetFriends | server/server.py:218-242 | the three lists hold exactly the accepted, pending and request entries of the caller's list |
| Friends.ListingsAgree | server/server.py:218-242 | on paired lists, b is in a's outgoing list iff a is in b's incoming list, and they list each other as friends symmetrically |
| Registry.Put | server/server.py:425 | storing a chat keeps the key order listing each key once |
| Registry.Remove | server/server.py:471 | deleting a chat keeps the key order listing each key once |
| Registry.FindPrivate | server/server.py:414-421 | the first private chat, in stored order, with exactly those participants |
| Registry.WithCreator | server/server.py:399-400 | the creator is added to the participants when missing, and only then |
| Registry.Create | server/server.py:393-457 | fails iff a private chat does not have exactly two participants (creator included) or a group has fewer than two or no name, with the three 400 errors in that order; an existing private chat for the same people is returned and nothing is created; a new chat has the creator as `created_by`, the group's name or none, and the creator as admin of a group or no admin |
| Registry.ExistingIsFirst | server/server.py:414-421 | the existing chat found is the first match in stored order |
| Registry.DeleteChat | server/server.py:461-474 | 404 for an unknown chat, 403 for a non-participant, otherwise the chat is gone |
| Registry.AdminCheck | server/server.py:488-494 | passes iff the chat exists and the caller is its admin; otherwise 404 or 403 |
| Registry.AddMember | server/server.py:481-509 | admin only; a new member is appended; an existing member is a no-op |
| Registry.RemoveMember | server/server.py:513-552 | admin only; removing the admin is refused with 400; a listed member loses its first occurrence; an absent one is a no-op |
| Registry.Rename | server/server.py:556-587 | the stripped name must be non-empty (checked first); admin only; only the name changes |
| Registry.Transfer | server/server.py:593-640 | admin only; the new admin must be a participant; only the admin changes; the notice text names both |
| Registry.DeleteGroup | server/server.py:644-669 | admin only; the chat is gone |
| Registry.CreateKeepsValid | server/server.py:399-432 | creation keeps every admin among its chat's participants |
| Registry.DeleteKeepsValid | server/server.py:464-472 | deletion keeps the invariant |
| Registry.AddKeepsValid | server/server.py:493-498 | adding a member keeps the invariant |
| Registry.RemoveKeepsValid | server/server.py:525-533 | removing a member keeps the invariant, because the admin cannot be removed |
| Registry.RenameKeepsValid | server/server.py:571-576 | renaming keeps the invariant |
| Registry.TransferKeepsValid | server/server.py:606-616 | transfer keeps the invariant, because the new admin must be a participant |
| Registry.AddMemberIdempotent | server/server.py:496-498 | adding the same member twice is adding once |
| Registry.Migrate | server/server.py:365-368 | a group without an `admin` field gets its creator, or its first participant; nothing else changes |
| Registry.Migrated | server/server.py:362-369 | exactly the chats the user sees are migrated |
| Registry.Views | server/server.py:362-380 | only chats the user takes part in are listed, in the order of the ids walked |
| Registry.GetChats | server/server.py:357-389 | only the user's chats are listed, in the registry's key order, and the registry is saved migrated |
| Registry.ViewsComplete | server/server.py:362-380 | every chat of the user is listed |
| Registry.GetChatsExact | server/server.py:362-380 | every chat of the user appears in `get_chats` |
| Registry.GetChatsAdmins | server/server.py:365-376 | a listed group names an admin unless its stored admin is `null` |
| Registry.ViewsAreViews | server/server.py:371-380 | each listed entry shows the (migrated) stored chat |
| Registry.MigrationKeepsValid | server/server.py:365-369 | migration keeps admins inside when every recorded creator is a participant |
| Registry.MigrationOutsider | server/server.py:367 | a creator who has left the group becomes its admin from outside |
| Sessions.Told | server/server.py:711-716 | exactly the names of the list that are accepted friends and online, in the list's order |
| Sessions.Authenticate | server/server.py:694-718 | an invalid token is refused iff the check fails; otherwise the session maps to the user, the user is online under it, and exactly the accepted friends on the user's list who are online are told, in list order |
| Sessions.DisconnectAsWritten | server/server.py:721-739 | as written: an unauthenticated socket changes nothing; otherwise the session goes, the user goes offline whatever session they are online under, and exactly their accepted friends still online are told |
| Sessions.StaleDisconnect | server/server.py:722-728 | a reconnected user whose old session closes is taken offline although the new session is live |
| Sessions.Disconnect | server/server.py:722-739 | corrected: the user goes offline only when the closing session is the one they are online under, and then exactly their accepted friends still online are told; otherwise nobody is told |
| Sessions.StaleDisconnectFixed | server/server.py:722-728 | with the correction the reconnected user stays online under the live session |
| Sessions.DisconnectKeepsConsistent | server/server.py:722-728 | both versions keep each online user pointing at a live session of their own |
| Sessions.DisconnectKeepsReachable | server/server.py:722-728 | with the correction, every live session's user stays online |
| Sessions.AuthenticateKeepsConsistent | server/server.py:703-705 | a new session, or one re-authenticated as the same user, keeps both maps in step |
| Sessions.SwitchedSession | server/server.py:703-705 | a session re-authenticated as another user leaves the first user pointing at it |

## Left out

- ChatWindow.Compose: states what `onSendMessage` hands to `send_message`, not what reaches the server. `send_message` drops the message without a word when no socket is held or the client is not connected (`__init__.py:654-656`).
- Input/output: file reads and writes, `os.makedirs`, `load_json`/`save_json`, HTTP requests and responses, Socket.IO emits to rooms, and the websocket client. Ledger files are a map from file name to text, and server files are maps.
- Concurrency and timing: threads, `wx.CallAfter`/`CallLater`, the heartbeat loop and the message-queue pump. Work handed to them is returned as effects, or as the reload count.
- `load_chats` runs on its own thread, so a requested reload does not change the cached chats inside `Dispatch.OnNewMessage`. A reload shows up there only in the count. What the reload does once the list arrives is `Dispatch.ChatsLoaded`; a failed request, which leaves the cache as it was, is not modelled.
- Dispatch.Saved: assumes every write succeeds. `save_message_locally` swallows any error (`__init__.py:710-712`), so a chat name holding `/` or a character Windows forbids in file names (`\ : * ? " < > |`) saves nothing. On a case-insensitive file system `Bob.txt` and `bob.txt` are one file. The model's files are a map keyed by the exact name.
- Sounds, speech modes, `ui.message` wording for speech, dialogs, the update checker and the installer. The client's speech is modelled only as `Notice` values and the `alert` flag.
- Password hashing and tokens: bcrypt and JWT are foreign code. `verify_token` is the `verified` parameter of `Sessions.Authenticate`. `register` and `login` are not modelled.
- Clocks and ids are parameters: `datetime.now()`, `time.time()`-based chat and message ids, and `format_timestamp`.
- `send_message` frame construction. It puts the text into JSON without escaping, so there is no round trip to state.
- The server's `send_message`, `typing`, `heartbeat` and `ping` handlers.
- Group welcome and notification emits. The admin-transfer text is modelled because the client reacts to it.
- `Dispatch.DecodeNewMessage` gives no message (`None`) in three cases: a missing `chat_id`, a non-object `message`, or non-string fields. In Python a missing id saves to `None.txt`, and a non-object message raises inside the queue pump (`__init__.py:200-207`), which ends that round early; the remaining frames are handled on the next tick.
- `Config.PairsUpdate`: list items with non-string keys are treated as failures. Python would accept any hashable key. A JSON object with exactly two keys is also treated as a failure. Python iterates it and takes its two keys as the pair (`dict([{"a": 1, "b": 2}])` is `{"a": "b"}`); the model's objects have no key order, so the pair cannot be formed.
- JSON numbers with a fraction or an exponent (Python floats) are not modelled: `Json` has integers only.
- `Config.LoadConfig` does not model the migration of an old config file.
- `Dispatch.OnNewMessage` abstracts the window's "viewing this chat" test (shown, current chat, right panel shown) to the `focused` parameter.
- `Registry.AddMember`: a request without `username` appends `None` to the participants. That case is not modelled; the member is always a user name.
- `Registry.Migrate`: a `created_by` field that is present but null is not distinguished from a user name. In Python it would make the admin `None`.
- `Registry.GetChatsAdmins` is stated only for groups whose stored admin is not null: a group stored with `admin: null` keeps no admin.
- `Registry.MigrationKeepsValid` requires every recorded creator to be a participant. Without this the invariant fails; `Registry.MigrationOutsider` shows how.
- `Sessions.Disconnect` does not pick another live session for a user when the session they are online under closes. `Sessions.DisconnectKeepsReachable` therefore assumes at most one session per user in that case.
- The `user_online`/`user_offline` announcements are not modelled, only the status change of the client's friend list. Neither is the `friend_request` branch, which only reloads the friend list.

## Findings

| source | as written | input that shows it | evidently intended | confidence | as-written member | corrected member |
|---|---|---|---|---|---|---|
| server/server.py:722-728 | a disconnecting session removes its user from `online_users` even when the user has since reconnected under a newer session | `online_users = {ann: s2}`, `user_sessions = {s1: ann, s2: ann}`; session `s1` disconnects | remove the user only when `online_users[user]` is the closing session | not executed | Sessions.DisconnectAsWritten (shown by Sessions.StaleDisconnect) | Sessions.Disconnect (Sessions.StaleDisconnectFixed, Sessions.DisconnectKeepsReachable) |
| __init__.py:388-391 | at the limit `schedule_reconnect` returns without a word and leaves the announcement to `on_ws_close`; `on_ws_close` runs only for a socket that was started, and a failed login never starts one (`startWebSocket` follows only a 200 answer, `__init__.py:363-374`), so a client whose logins keep failing gives up in silence | the server is down and `reconnect_attempts` is 5; the user connects: "Timeout" on the first attempt, then five silent retries, then nothing | say "Connection lost. Manual reconnect needed." once all attempts are exhausted, as the comment at `__init__.py:484` promises | not executed | Connection.ScheduleReconnect (shown by Connection.FreshTimeoutRun, Connection.OpenedThenDropped) | Connection.ScheduleReconnectFixed (Connection.FreshTimeoutRunFixed, Connection.TimeoutRunFixedNotices, Connection.DroppedThenAnnounced) |
| __init__.py:386 | an unexpected login error is reported by `wx.CallAfter(lambda: ui.message(f"Error: {e}"))`; Python unbinds `e` when the `except` block ends, so the lambda raises `NameError` on the GUI thread and nothing is said | a login answered with status 200 whose body is not JSON, so `resp.json()` raises | say "Error: …" | not executed | Connection.LoginDoneAsWritten (shown by Connection.ErrorUnheard) | Connection.LoginDone (Connection.ErrorUnheard) |
| __init__.py:225-230, 525-528 | a message for a chat that is not cached yet is saved to `<chat id>.txt`; the reload it asks for then caches the chat, and from then on the chat is read from `<chat name>.txt`, so the message never shows in the window | logged in as `me`, `ann` starts a private chat `chat_1` and sends "hi" before the client has cached it; opening `chat_1` afterwards reads `ann.txt` | the message is found when the chat is opened | not executed | Dispatch.ChatsLoaded (shown by Dispatch.UncachedArrivalLost, Dispatch.RenamedOnReload) | Dispatch.ChatsLoadedFixed (Dispatch.UncachedArrivalKept) |

=== FILE: chatwindow.dfy ===
/** The chat window's own bookkeeping: the Page Up / Page Down cursor over
    the message history, the `/me` prefix of an outgoing message, and the
    mute list toggle. */
module ChatWindow {
  import opened Wrappers
  import opened Text
  import opened Lists
  import opened Domain

  // ---------------------------------------------------------------------
  // History cursor

  /** `history_position`: -1 means "at the end" (nothing selected), any
      other value indexes the history of `n` messages. */
  predicate CursorOk(pos: int, n: nat) {
    pos == -1 || 0 <= pos < n
  }

  datatype Key = PageUp | ShiftPageUp | PageDown | ShiftPageDown

  /** What the key press makes the window say. */
  datatype Speech =
    | Silent                                  // the key is passed on
    | Quiet                                   // speech is turned back on, nothing said
    | Announce(index: nat, prefix: string)    // the message at `index`
    | AtNewest

  datatype Moved = Moved(pos: int, speech: Speech)

  /** The key handler of the input box and the history box. An empty
      history ignores the keys. Page Up steps to older messages (from the end
      to the newest one, then down to the oldest and stays there); Page Down
      steps to newer ones and, from the newest, back to the end. Shift jumps
      to the oldest or the newest. */
  function Press(pos: int, n: nat, key: Key): (m: Moved)
    requires CursorOk(pos, n)
    ensures CursorOk(m.pos, n)
    ensures n == 0 ==> m == Moved(pos, Silent)
    ensures m.speech.Announce? ==> m.speech.index < n && m.pos == m.speech.index
    ensures n > 0 && key == ShiftPageUp ==> m == Moved(0, Announce(0, "Oldest message"))
    ensures n > 0 && key == ShiftPageDown ==> m == Moved(n - 1, Announce(n - 1, "Newest message"))
  {
    if n == 0 then Moved(pos, Silent)
    else
      match key
      case ShiftPageUp => Moved(0, Announce(0, "Oldest message"))
      case ShiftPageDown => Moved(n - 1, Announce(n - 1, "Newest message"))
      case PageUp =>
        var p := if pos == -1 then n - 1 else if pos > 0 then pos - 1 else pos;
        if 0 <= p < n then Moved(p, Announce(p, "")) else Moved(p, Quiet)
      case PageDown =>
        if pos != -1 && pos < n - 1 then Moved(pos + 1, Announce(pos + 1, ""))
        else if pos == n - 1 then Moved(-1, AtNewest)
        else Moved(pos, Quiet)
  }

  /** Page Down undoes Page Up, except at the oldest message where Page Up
      does not move. */
  lemma DownUndoesUp(pos: int, n: nat)
    requires CursorOk(pos, n) && n > 0 && pos != 0
    ensures Press(Press(pos, n, PageUp).pos, n, PageDown).pos == pos
  {
  }

  /** Page Up undoes Page Down, except at the end where Page Down does not move. */
  lemma UpUndoesDown(pos: int, n: nat)
    requires CursorOk(pos, n) && n > 0 && pos != -1
    ensures Press(Press(pos, n, PageDown).pos, n, PageUp).pos == pos
  {
  }

  /** Page Up never moves past the oldest message, and from the end it
      selects the newest. */
  lemma UpMonotone(pos: int, n: nat)
    requires CursorOk(pos, n) && n > 0
    ensures var p := Press(pos, n, PageUp).pos;
            (pos == -1 ==> p == n - 1) && (pos >= 0 ==> p == if pos == 0 then 0 else pos - 1)
  {
  }

  datatype History<T> = History(items: seq<T>, pos: int)

  /** `display_messages`: the history becomes the loaded messages, cursor at the end. */
  function Show<T>(messages: seq<T>): (h: History<T>)
    ensures h.items == messages && h.pos == -1 && CursorOk(h.pos, |h.items|)
  {
    History(messages, -1)
  }

  /** `on_new_message` for the chat on screen: the message joins the end of
      the history and the cursor goes back to the end. */
  function Arrived<T>(h: History<T>, m: T): (h': History<T>)
    ensures h'.items == h.items + [m] && h'.pos == -1
    ensures CursorOk(h'.pos, |h'.items|)
    ensures Press(h'.pos, |h'.items|, PageUp) == Moved(|h.items|, Announce(|h.items|, ""))
  {
    History(h.items + [m], -1)
  }

  /** Right after the history is shown, Page Up announces the newest loaded
      message, Shift+Page Up the oldest, and Page Down says nothing; a
      message arriving next becomes the newest. */
  lemma ShownThenBrowse<T>(messages: seq<T>, m: T)
    requires messages != []
    ensures var h := Show(messages);
            && Press(h.pos, |h.items|, PageUp) == Moved(|messages| - 1, Announce(|messages| - 1, ""))
            && h.items[|messages| - 1] == messages[|messages| - 1]
            && Press(h.pos, |h.items|, ShiftPageUp).speech == Announce(0, "Oldest message")
            && Press(h.pos, |h.items|, PageDown) == Moved(-1, Quiet)
            && Arrived(h, m).items == messages + [m]
  {
  }

  // ---------------------------------------------------------------------
  // Outgoing message

  datatype Outgoing = Outgoing(chat: ChatId, text: string, isAction: bool)

  /** `onSendMessage`: nothing happens unless a chat is open
      (`current_chat`, empty or `None` meaning none); the input is stripped;
      an empty one sends nothing; a leading `/me ` marks an action and is
      removed. */
  function Compose(current: Option<ChatId>, input: string): (r: Option<Outgoing>)
    ensures r.None? <==> current.None? || current.value == "" || Strip(input) == ""
    ensures r.Some? ==> r.value.chat == current.value
    ensures r.Some? && !r.value.isAction ==> r.value.text == Strip(input) && !StartsWith(r.value.text, "/me ")
    ensures r.Some? && r.value.isAction ==> Strip(input) == "/me " + r.value.text
    ensures r.Some? ==> r.value.text != "" && !IsSpace(r.value.text[|r.value.text| - 1])
  {
    if current.None? || current.value == "" then None
    else
      var msg := Strip(input);
      if msg == "" then None
      else if StartsWith(msg, "/me ") then
        assert msg == "/me " + msg[4..];
        Some(Outgoing(current.value, msg[4..], true))
      else Some(Outgoing(current.value, msg, false))
  }

  /** An action composed from `/me` text is sent without the prefix and
      with the rest untouched: typing `/me ` before a stripped, non-empty
      text gives back that text as an action for the open chat. */
  lemma ComposeAction(cid: ChatId, text: string)
    requires cid != "" && text != "" && !IsSpace(text[0]) && !IsSpace(text[|text| - 1])
    ensures Compose(Some(cid), "/me " + text) == Some(Outgoing(cid, text, true))
  {
    var s := "/me " + text;
    assert !IsSpace(s[0]) && !IsSpace(s[|s| - 1]);
    StripOfTrimmed(s);
    assert s[..4] == "/me ";
    assert s[4..] == text;
  }

  // ---------------------------------------------------------------------
  // Mute list

  /** `toggle_mute`: an id on the list is removed (its first occurrence),
      any other id is appended. */
  function ToggleMute<T(==)>(muted: seq<T>, id: T): (r: seq<T>)
    ensures id in muted ==> multiset(r) == multiset(muted) - multiset{id}
    ensures id !in muted ==> r == muted + [id]
  {
    if id in muted then RemoveFirst(muted, id) else muted + [id]
  }

  /** On a list without repeats (which toggling alone keeps), toggling
      flips the id's membership. */
  lemma ToggleFlips<T>(muted: seq<T>, id: T)
    requires Distinct(muted)
    ensures Distinct(ToggleMute(muted, id))
    ensures (id in ToggleMute(muted, id)) <==> id !in muted
  {
    var r := ToggleMute(muted, id);
    if id in muted {
      DistinctCount(muted, id);
      assert multiset(r)[id] == 0;
      RemoveFirstDistinct(muted, id);
    } else {
      assert Distinct(r) by {
        forall i, j | 0 <= i < j < |r| ensures r[i] != r[j] {
          if j == |muted| { assert r[j] == id && r[i] == muted[i]; }
        }
      }
    }
  }

  /** Toggling one id leaves every other id on or off the list as it was. */
  lemma ToggleOthers<T>(muted: seq<T>, id: T, other: T)
    requires other != id
    ensures (other in ToggleMute(muted, id)) <==> other in muted
  {
    if id in muted {
      RemoveFirstOthers(muted, id, other);
    }
  }

  /** Toggling twice restores membership of every id (the position of a
      re-muted id may move to the end). */
  lemma ToggleTwice<T>(muted: seq<T>, id: T, x: T)
    requires Distinct(muted)
    ensures x in ToggleMute(ToggleMute(muted, id), id) <==> x in muted
  {
    var m1 := ToggleMute(muted, id);
    ToggleFlips(muted, id);
    if x != id {
      ToggleOthers(muted, id, x);
      ToggleOthers(m1, id, x);
    } else {
      ToggleFlips(m1, id);
    }
  }
}

=== FILE: config.dfy ===
/** The client's settings: the built-in defaults and `loadConfig`, which
    overlays whatever the settings file holds on a copy of them. */
module Config {
  import opened Wrappers
  import opened Json

  /** The built-in settings. The messages folder depends on the home
      directory, so it is a parameter. */
  function Defaults(messagesFolder: string): (d: map<string, Json>)
    ensures "reconnect_attempts" in d && d["reconnect_attempts"] == JInt(10)
    ensures "reconnect_delay" in d && d["reconnect_delay"] == JInt(5)
    ensures "max_messages_to_load" in d && d["max_messages_to_load"] == JInt(100)
    ensures "save_messages_locally" in d && d["save_messages_locally"] == JBool(true)
    ensures "muted_chats" in d && d["muted_chats"] == JList([])
    ensures "messages_folder" in d && d["messages_folder"] == JStr(messagesFolder)
  {
    Interface() + map[
      "max_messages_to_load" := JInt(100),
      "reconnect_attempts" := JInt(10),
      "reconnect_delay" := JInt(5),
      "save_messages_locally" := JBool(true),
      "messages_folder" := JStr(messagesFolder),
      "muted_chats" := JList([])
    ]
  }

  /** The defaults the model does not read: account, display, sound and speech settings. */
  function Interface(): map<string, Json> {
    map[
      "server_url" := JStr("http://tt.dragodark.com:8080"),
      "username" := JStr(""),
      "password" := JStr(""),
      "email" := JStr(""),
      "auto_connect" := JBool(false),
      "check_updates_on_startup" := JBool(true),
      "show_timestamps" := JBool(true),
      "sound_enabled" := JBool(true),
      "notifications_enabled" := JBool(true),
      "sound_message_received" := JBool(true),
      "sound_message_sent" := JBool(true),
      "sound_user_online" := JBool(true),
      "sound_user_offline" := JBool(true),
      "sound_friend_request" := JBool(true),
      "sound_error" := JBool(true),
      "sound_connected" := JBool(true),
      "sound_disconnected" := JBool(true),
      "sound_group_message" := JBool(true),
      "speak_message_received" := JBool(true),
      "speak_message_sent" := JBool(false),
      "speak_user_online" := JBool(true),
      "speak_user_offline" := JBool(true),
      "speak_friend_request" := JBool(true),
      "speak_group_message" := JBool(true),
      "read_messages_aloud" := JBool(true)
    ]
  }

  /** `dict.update(other)`: every key of `other` takes `other`'s value, every
      other key keeps its own. */
  function Overlay(base: map<string, Json>, other: map<string, Json>): (m: map<string, Json>)
    ensures m.Keys == base.Keys + other.Keys
    ensures forall k :: k in other ==> m[k] == other[k]
    ensures forall k :: k in base && k !in other ==> m[k] == base[k]
  {
    map k | k in base.Keys + other.Keys :: if k in other then other[k] else base[k]
  }

  /** `dict.update` with a list: each item must be a pair; a two-element
      list with a string key, or a two-character string, gives one entry,
      later items overriding earlier ones. Anything else makes `update`
      raise, shown as `None`. */
  function PairsUpdate(base: map<string, Json>, items: seq<Json>): (r: Option<map<string, Json>>)
    ensures r.Some? ==> base.Keys <= r.value.Keys
    decreases |items|
  {
    if items == [] then Some(base)
    else
      var entry: Option<(string, Json)> :=
        match items[0]
        case JList(pair) =>
          if |pair| == 2 && pair[0].JStr? then Some((pair[0].s, pair[1])) else None
        case JStr(s) =>
          if |s| == 2 then Some(([s[0]], JStr([s[1]]))) else None
        case _ => None;
      match entry
      case None => None
      case Some((k, v)) => PairsUpdate(base[k := v], items[1..])
  }

  /** One pair updates one key; later pairs override earlier ones. */
  lemma PairsInOrder(base: map<string, Json>, k: string, v: Json, w: Json)
    ensures PairsUpdate(base, [JList([JStr(k), v])]) == Some(base[k := v])
    ensures PairsUpdate(base, [JList([JStr(k), v]), JList([JStr(k), w])]) == Some(base[k := w])
  {
    var two := [JList([JStr(k), v]), JList([JStr(k), w])];
    var one := [JList([JStr(k), w])];
    assert two[1..] == one && one[1..] == [];
    assert PairsUpdate(base, two) == PairsUpdate(base[k := v], one);
    assert PairsUpdate(base[k := v], one) == PairsUpdate(base[k := v][k := w], []);
    assert base[k := v][k := w] == base[k := w];
  }

  /** `loadConfig`: without a readable settings file, the defaults; with
      one, the defaults overlaid with what it holds, provided the overlay
      succeeds and the merged settings can be written back (any failure
      falls back to the defaults). */
  function LoadConfig(messagesFolder: string, saved: Option<Json>, writeOk: bool): (cfg: map<string, Json>)
    ensures saved.Some? && saved.value.JObject? && writeOk ==>
      cfg == Overlay(Defaults(messagesFolder), saved.value.fields)
    ensures saved.None? || !writeOk ==> cfg == Defaults(messagesFolder)
    ensures Defaults(messagesFolder).Keys <= cfg.Keys
  {
    var d := Defaults(messagesFolder);
    match saved
    case None => d
    case Some(j) =>
      var merged: Option<map<string, Json>> :=
        match j
        case JObject(fields) => Some(Overlay(d, fields))
        case JList(items) => PairsUpdate(d, items)
        case JStr(s) => if s == "" then Some(d) else None
        case _ => None;
      if merged.Some? && writeOk then merged.value else d
  }

  /** A saved setting always wins over its default. */
  lemma SavedWins(folder: string, fields: map<string, Json>, k: string)
    requires k in fields
    ensures var cfg := LoadConfig(folder, Some(JObject(fields)), true);
            k in cfg && cfg[k] == fields[k]
  {
  }

  /** A default the file does not mention keeps its default value. */
  lemma DefaultKept(folder: string, fields: map<string, Json>, k: string)
    requires k in Defaults(folder) && k !in fields
    ensures var cfg := LoadConfig(folder, Some(JObject(fields)), true);
            k in cfg && cfg[k] == Defaults(folder)[k]
  {
  }

  /** Loading is stable: the merged settings are written back, and loading
      that file again gives the same settings. */
  lemma LoadAgain(folder: string, saved: Option<Json>)
    ensures var cfg := LoadConfig(folder, saved, true);
            LoadConfig(folder, Some(JObject(cfg)), true) == cfg
  {
    var d := Defaults(folder);
    var cfg := LoadConfig(folder, saved, true);
    assert d.Keys <= cfg.Keys;
    var again := Overlay(d, cfg);
    assert again.Keys == cfg.Keys;
  }

  /** Whatever the file holds, the settings carry a `reconnect_attempts`
      entry, so the fallbacks 5 (in `schedule_reconnect`) and 3 (in
      `on_ws_close`) are never used. */
  lemma ReconnectAttemptsPresent(folder: string, saved: Option<Json>, writeOk: bool)
    ensures "reconnect_attempts" in LoadConfig(folder, saved, writeOk)
  {
  }
}

=== FILE: connection.dfy ===
/** The client's connection bookkeeping: the login attempt, the reconnect
    counter and its limit, the socket's open and close callbacks, and a
    user-requested disconnect.

    Threads and timers are not modelled; what the code hands to them comes
    back as `Effect`s, and what it says to the user as `Notice`s. */
module Connection {

  /** `connected`, whether a socket object is held (`self.ws`),
      `reconnect_count` and `manual_disconnect`. The socket thread sets
      `self.ws` (`__init__.py:398-401`) outside these transitions, so no
      function here turns `socket` on: `StartSocket` only hands the work
      to that thread. */
  datatype Conn = Conn(connected: bool, socket: bool, count: int, manual: bool)

  /** `reconnect_attempts` and `reconnect_delay` from the settings. */
  datatype Limits = Limits(attempts: int, delay: int)

  /** What the user hears. */
  datatype Notice =
    | Connected
    | LoginFailed
    | TimedOut
    | Unreachable
    | Failed
    | ConnectionLost
    | Disconnected
    | ConfigureCredentials

  /** Work handed to a thread or timer. */
  datatype Effect =
    | StartLogin                 // the `_connect_thread` thread
    | ConnectAfter(millis: int)  // `wx.CallLater(delay * 1000, self.connect)`
    | ScheduleSoon               // `wx.CallAfter(self.schedule_reconnect)`
    | StartSocket
    | LoadFriends
    | LoadChats
    | SendFrame(frame: string)
    | SendAuthenticate
    | StartHeartbeat
    | CloseSocket
    | ClearChats
    | ShowWindow

  datatype Step = Step(conn: Conn, notices: seq<Notice>, effects: seq<Effect>)

  /** How the login request ended. */
  datatype LoginOutcome =
    | Accepted          // HTTP 200
    | Rejected          // any other status
    | Timeout           // `requests.exceptions.Timeout`
    | ConnectionError   // `requests.exceptions.ConnectionError`
    | OtherError        // any other exception

  function Max(a: int, b: int): int {
    if a >= b then a else b
  }

  /** The counter never goes below 0 nor above the limit (0 for a negative limit). */
  predicate Valid(c: Conn, lim: Limits) {
    0 <= c.count <= Max(lim.attempts, 0)
  }

  /** `connect`: refuses without credentials, otherwise clears the manual
      flag and starts the login thread. */
  function Connect(c: Conn, username: string, password: string): (s: Step)
    ensures username == "" || password == "" ==>
      s == Step(c, [ConfigureCredentials], [ShowWindow])
    ensures username != "" && password != "" ==>
      s.conn == c.(manual := false) && s.notices == [] && s.effects == [StartLogin]
  {
    if username == "" || password == "" then Step(c, [ConfigureCredentials], [ShowWindow])
    else Step(c.(manual := false), [], [StartLogin])
  }

  /** `schedule_reconnect`: below the limit, count one more attempt and
      connect again after the delay; at or above it, do nothing. */
  function ScheduleReconnect(c: Conn, lim: Limits): (s: Step)
    ensures c.count >= lim.attempts ==> s == Step(c, [], [])
    ensures c.count < lim.attempts ==>
      s.conn == c.(count := c.count + 1) && s.notices == []
      && s.effects == [ConnectAfter(lim.delay * 1000)]
    ensures Valid(c, lim) ==> Valid(s.conn, lim)
  {
    if c.count >= lim.attempts then Step(c, [], [])
    else Step(c.(count := c.count + 1), [], [ConnectAfter(lim.delay * 1000)])
  }

  /** `schedule_reconnect` as evidently intended. Its comment leaves the
      announcement at the limit to `on_ws_close`, which runs only for a
      socket that was started; a failed login never starts one, since
      `startWebSocket` follows only a 200 answer. So,
      when the user did not disconnect, giving up is announced here. Below
      the limit it is `ScheduleReconnect`. */
  function ScheduleReconnectFixed(c: Conn, lim: Limits): (s: Step)
    ensures c.count >= lim.attempts ==>
      s.conn == c && s.effects == [] && s.notices == (if c.manual then [] else [ConnectionLost])
    ensures c.count < lim.attempts ==> s == ScheduleReconnect(c, lim)
    ensures ConnectionLost in s.notices <==> !c.manual && c.count >= lim.attempts
    ensures Valid(c, lim) ==> Valid(s.conn, lim)
  {
    if c.count >= lim.attempts then Step(c, if c.manual then [] else [ConnectionLost], [])
    else ScheduleReconnect(c, lim)
  }

  /** The end of `_connect_thread`. A success resets the counter and is
      announced only when it was not a reconnection; a timeout or an
      unreachable server is announced only on the first attempt, and retried
      unless the user disconnected. */
  function LoginDone(c: Conn, lim: Limits, outcome: LoginOutcome): (s: Step)
    ensures outcome == Accepted ==>
      s.conn == c.(connected := true, count := 0)
      && s.notices == (if c.count > 0 then [] else [Connected])
      && s.effects == [StartSocket, LoadFriends, LoadChats]
    ensures outcome == Rejected ==> s == Step(c, [LoginFailed], [])
    ensures outcome == OtherError ==> s == Step(c, [Failed], [])
    ensures outcome == Timeout || outcome == ConnectionError ==>
      && s.notices == (if c.count == 0 then [if outcome == Timeout then TimedOut else Unreachable] else [])
      && s.conn == (if c.manual then c else ScheduleReconnect(c, lim).conn)
      && s.effects == (if c.manual then [] else ScheduleReconnect(c, lim).effects)
    ensures Valid(c, lim) ==> Valid(s.conn, lim)
  {
    match outcome
    case Accepted =>
      var notices := if c.count > 0 then [] else [Connected];
      Step(c.(connected := true, count := 0), notices, [StartSocket, LoadFriends, LoadChats])
    case Rejected => Step(c, [LoginFailed], [])
    case OtherError => Step(c, [Failed], [])
    case _ =>
      var notices := if c.count == 0 then [if outcome == Timeout then TimedOut else Unreachable] else [];
      if c.manual then Step(c, notices, [])
      else
        var r := ScheduleReconnect(c, lim);
        Step(r.conn, notices, r.effects)
  }

  /** `LoginDone` with the corrected `ScheduleReconnectFixed` on the retry
      path: a timeout or an unreachable server at the limit, when the user
      did not disconnect, is followed by "Connection lost". */
  function LoginDoneFixed(c: Conn, lim: Limits, outcome: LoginOutcome): (s: Step)
    ensures (outcome == Timeout || outcome == ConnectionError) && !c.manual ==>
      && s.conn == ScheduleReconnectFixed(c, lim).conn
      && s.effects == ScheduleReconnectFixed(c, lim).effects
      && s.notices == (if c.count == 0 then [if outcome == Timeout then TimedOut else Unreachable] else [])
                      + ScheduleReconnectFixed(c, lim).notices
    ensures !((outcome == Timeout || outcome == ConnectionError) && !c.manual) ==> s == LoginDone(c, lim, outcome)
    ensures Valid(c, lim) ==> Valid(s.conn, lim)
  {
    if (outcome == Timeout || outcome == ConnectionError) && !c.manual then
      var notices := if c.count == 0 then [if outcome == Timeout then TimedOut else Unreachable] else [];
      var r := ScheduleReconnectFixed(c, lim);
      Step(r.conn, notices + r.notices, r.effects)
    else LoginDone(c, lim, outcome)
  }

  /** The end of `_connect_thread` AS WRITTEN. The handler for any other
      exception hands `ui.message(f"Error: {e}")` to the GUI thread inside a
      lambda. Python unbinds `e` when the handler ends, so the lambda raises
      `NameError` when it runs, and nothing is said. Every other outcome is
      as in `LoginDone`, which says `Failed` as evidently intended. */
  function LoginDoneAsWritten(c: Conn, lim: Limits, outcome: LoginOutcome): (s: Step)
    ensures outcome == OtherError ==> s.conn == c && s.notices == [] && s.effects == []
    ensures outcome != OtherError ==> s == LoginDone(c, lim, outcome)
  {
    if outcome == OtherError then Step(c, [], []) else LoginDone(c, lim, outcome)
  }

  /** An unexpected error during login (a 200 answer whose body is not JSON,
      say) ends the attempt in silence whatever the counter: nothing is said
      and nothing is retried, so the user is left waiting. The corrected
      handler reports it. */
  lemma ErrorUnheard(c: Conn, lim: Limits)
    ensures var s := LoginDoneAsWritten(c, lim, OtherError);
            s.notices == [] && s.effects == [] && s.conn == c
    ensures LoginDone(c, lim, OtherError).notices == [Failed]
  {
  }

  /** `on_ws_open`: the counter is reset, the Socket.IO connect frame and the
      authentication frame are sent, and the heartbeat starts. */
  function SocketOpened(c: Conn): (s: Step)
    ensures s.conn == c.(count := 0) && s.notices == []
    ensures s.effects == [SendFrame("40"), SendAuthenticate, StartHeartbeat]
  {
    Step(c.(count := 0), [], [SendFrame("40"), SendAuthenticate, StartHeartbeat])
  }

  /** `on_ws_close`: the connection is gone. After a manual disconnect
      nothing more happens; below the limit a reconnect is scheduled
      silently; at the limit the user is told once that the connection was
      lost, and nothing is scheduled. */
  function SocketClosed(c: Conn, lim: Limits): (s: Step)
    ensures s.conn == c.(connected := false, socket := false)
    ensures c.manual ==> s.notices == [] && s.effects == []
    ensures !c.manual && c.count < lim.attempts ==> s.notices == [] && s.effects == [ScheduleSoon]
    ensures !c.manual && c.count >= lim.attempts ==> s.notices == [ConnectionLost] && s.effects == []
    ensures ConnectionLost in s.notices <==> !c.manual && c.count >= lim.attempts
  {
    var c' := c.(connected := false, socket := false);
    if c.manual then Step(c', [], [])
    else if c.count < lim.attempts then Step(c', [], [ScheduleSoon])
    else Step(c', [ConnectionLost], [])
  }

  /** `disconnect(silent)`: marks the disconnect as the user's, closes the
      socket if there is one, empties the chat list and, unless silent, says so. */
  function Disconnect(c: Conn, silent: bool): (s: Step)
    ensures s.conn == c.(manual := true, connected := false, socket := false)
    ensures s.notices == (if silent then [] else [Disconnected])
    ensures CloseSocket in s.effects <==> c.socket
    ensures ClearChats in s.effects
  {
    var close := if c.socket then [CloseSocket] else [];
    Step(c.(manual := true, connected := false, socket := false),
         if silent then [] else [Disconnected], close + [ClearChats])
  }

  /** Every transition keeps the counter within its bounds. */
  lemma AllKeepValid(c: Conn, lim: Limits, outcome: LoginOutcome, silent: bool, user: string, pass: string)
    requires Valid(c, lim)
    ensures Valid(Connect(c, user, pass).conn, lim)
    ensures Valid(ScheduleReconnect(c, lim).conn, lim)
    ensures Valid(LoginDone(c, lim, outcome).conn, lim)
    ensures Valid(SocketOpened(c).conn, lim)
    ensures Valid(SocketClosed(c, lim).conn, lim)
    ensures Valid(Disconnect(c, silent).conn, lim)
  {
  }

  /** Once the limit is reached, scheduling again changes nothing. */
  lemma ScheduleIdempotentAtLimit(c: Conn, lim: Limits)
    requires c.count >= lim.attempts
    ensures ScheduleReconnect(ScheduleReconnect(c, lim).conn, lim) == ScheduleReconnect(c, lim)
  {
  }

  // ---------------------------------------------------------------------
  // A run against a server that never answers

  /** Repeated attempts that all time out: each failed attempt schedules the
      next one, until scheduling refuses. Returns the final state, every
      notice in order and the number of attempts made. */
  function TimeoutRun(c: Conn, lim: Limits): (r: (Conn, seq<Notice>, nat))
    requires Valid(c, lim) && !c.manual
    ensures r.2 >= 1
    ensures Valid(r.0, lim) && r.0.count == Max(lim.attempts, c.count)
    decreases lim.attempts - c.count
  {
    var s := LoginDone(c, lim, Timeout);
    if s.effects == [] then (s.conn, s.notices, 1)
    else
      var rest := TimeoutRun(s.conn, lim);
      (rest.0, s.notices + rest.1, rest.2 + 1)
  }

  /** Only the first attempt of a run speaks. */
  lemma {:induction false} TimeoutRunNotices(c: Conn, lim: Limits)
    requires Valid(c, lim) && !c.manual
    ensures TimeoutRun(c, lim).1 == (if c.count == 0 then [TimedOut] else [])
    decreases lim.attempts - c.count
  {
    var s := LoginDone(c, lim, Timeout);
    if s.effects != [] {
      TimeoutRunNotices(s.conn, lim);
    }
  }

  /** The number of attempts of a run: the first one and one per remaining
      reconnect. */
  lemma {:induction false} TimeoutRunAttempts(c: Conn, lim: Limits)
    requires Valid(c, lim) && !c.manual
    ensures TimeoutRun(c, lim).2 == Max(lim.attempts, c.count) - c.count + 1
    decreases lim.attempts - c.count
  {
    var s := LoginDone(c, lim, Timeout);
    if s.effects != [] {
      TimeoutRunAttempts(s.conn, lim);
    }
  }

  /** From a fresh start against an unreachable server, the client tries
      `reconnect_attempts + 1` times, says "Timeout" once, ends with the
      counter at the limit and never says that the connection was lost
      (that notice belongs to a socket that closes, not to a login that fails). */
  lemma FreshTimeoutRun(lim: Limits)
    requires lim.attempts >= 0
    ensures var r := TimeoutRun(Conn(false, false, 0, false), lim);
            r.0.count == lim.attempts && r.1 == [TimedOut] && ConnectionLost !in r.1
            && r.2 == lim.attempts + 1
  {
    TimeoutRunNotices(Conn(false, false, 0, false), lim);
    TimeoutRunAttempts(Conn(false, false, 0, false), lim);
  }

  /** The same run with the corrected scheduling: each attempt that
      times out schedules the next, until scheduling gives up. */
  function TimeoutRunFixed(c: Conn, lim: Limits): (r: (Conn, seq<Notice>, nat))
    requires Valid(c, lim) && !c.manual
    ensures r.2 >= 1
    ensures Valid(r.0, lim) && r.0.count == Max(lim.attempts, c.count)
    decreases lim.attempts - c.count
  {
    var s := LoginDoneFixed(c, lim, Timeout);
    if s.effects == [] then (s.conn, s.notices, 1)
    else
      var rest := TimeoutRunFixed(s.conn, lim);
      (rest.0, s.notices + rest.1, rest.2 + 1)
  }

  /** With the correction, a run speaks on its first attempt and, once,
      when it gives up. */
  lemma {:induction false} TimeoutRunFixedNotices(c: Conn, lim: Limits)
    requires Valid(c, lim) && !c.manual
    ensures TimeoutRunFixed(c, lim).1 == (if c.count == 0 then [TimedOut] else []) + [ConnectionLost]
    decreases lim.attempts - c.count
  {
    var s := LoginDoneFixed(c, lim, Timeout);
    if s.effects != [] {
      TimeoutRunFixedNotices(s.conn, lim);
    }
  }

  /** The correction changes what is said, not how often the client tries. */
  lemma {:induction false} TimeoutRunFixedAttempts(c: Conn, lim: Limits)
    requires Valid(c, lim) && !c.manual
    ensures TimeoutRunFixed(c, lim).2 == TimeoutRun(c, lim).2
    ensures TimeoutRunFixed(c, lim).0 == TimeoutRun(c, lim).0
    decreases lim.attempts - c.count
  {
    var s := LoginDoneFixed(c, lim, Timeout);
    if s.effects != [] {
      TimeoutRunFixedAttempts(s.conn, lim);
    }
  }

  /** From a fresh start against an unreachable server, the corrected
      client still tries `reconnect_attempts + 1` times and says "Timeout"
      on the first, and then says once that the connection was lost. */
  lemma FreshTimeoutRunFixed(lim: Limits)
    requires lim.attempts >= 0
    ensures var r := TimeoutRunFixed(Conn(false, false, 0, false), lim);
            r.0.count == lim.attempts && r.1 == [TimedOut, ConnectionLost]
            && r.2 == lim.attempts + 1
  {
    TimeoutRunFixedNotices(Conn(false, false, 0, false), lim);
    TimeoutRunFixedAttempts(Conn(false, false, 0, false), lim);
    TimeoutRunAttempts(Conn(false, false, 0, false), lim);
  }

  /** A connection that opened and then dropped, against a server that
      stays unreachable: the corrected client reconnects as often as before
      and ends by saying, once, that the connection was lost. */
  lemma DroppedThenAnnounced(c: Conn, lim: Limits)
    requires lim.attempts >= 1 && !c.manual
    ensures var t := ScheduleReconnectFixed(SocketClosed(SocketOpened(c).conn, lim).conn, lim);
            && Valid(t.conn, lim) && !t.conn.manual
            && TimeoutRunFixed(t.conn, lim).1 == [ConnectionLost]
            && TimeoutRunFixed(t.conn, lim).2 == lim.attempts
  {
    var t := ScheduleReconnectFixed(SocketClosed(SocketOpened(c).conn, lim).conn, lim);
    TimeoutRunFixedNotices(t.conn, lim);
    TimeoutRunFixedAttempts(t.conn, lim);
    TimeoutRunAttempts(t.conn, lim);
  }

  /** A socket that closes at the limit is reported once and not retried;
      below the limit it is retried through `schedule_reconnect`, which
      counts the attempt. */
  lemma ClosedThenScheduled(c: Conn, lim: Limits)
    requires Valid(c, lim) && !c.manual && c.count < lim.attempts
    ensures var s := SocketClosed(c, lim);
            var t := ScheduleReconnect(s.conn, lim);
            t.conn.count == c.count + 1 && t.effects == [ConnectAfter(lim.delay * 1000)]
            && !t.conn.connected && s.notices + t.notices == []
  {
  }

  /** A connection that opened has its full budget again: when it drops
      and the server stays unreachable, the client reconnects once per
      allowed attempt, every attempt silently, and ends at the limit without
      saying anything. */
  lemma OpenedThenDropped(c: Conn, lim: Limits)
    requires lim.attempts >= 1 && !c.manual
    ensures var o := SocketOpened(c);
            var d := SocketClosed(o.conn, lim);
            var t := ScheduleReconnect(d.conn, lim);
            && o.conn.count == 0 && d.notices == [] && d.effects == [ScheduleSoon]
            && t.conn.count == 1 && t.effects == [ConnectAfter(lim.delay * 1000)]
            && Valid(t.conn, lim) && !t.conn.manual
            && TimeoutRun(t.conn, lim).1 == []
            && TimeoutRun(t.conn, lim).2 == lim.attempts
            && TimeoutRun(t.conn, lim).0.count == lim.attempts
  {
    var t := ScheduleReconnect(SocketClosed(SocketOpened(c).conn, lim).conn, lim);
    TimeoutRunNotices(t.conn, lim);
    TimeoutRunAttempts(t.conn, lim);
  }

  /** `connect` does not reset the counter. After a run of timed-out logins
      has used up the attempts, a connect the user asks for that times out
      again says nothing and is not retried. */
  lemma RetryAfterRunSilent(lim: Limits, user: string, pass: string)
    requires lim.attempts >= 1 && user != "" && pass != ""
    ensures var r := TimeoutRun(Conn(false, false, 0, false), lim);
            var k := Connect(r.0, user, pass);
            var s := LoginDone(k.conn, lim, Timeout);
            && k.conn.count == lim.attempts && k.notices == [] && k.effects == [StartLogin]
            && s.notices == [] && s.effects == []
  {
    FreshTimeoutRun(lim);
  }

  /** A successful login after reconnects is silent and restarts counting. */
  lemma QuietReconnect(c: Conn, lim: Limits)
    requires c.count > 0
    ensures LoginDone(c, lim, Accepted).notices == []
    ensures LoginDone(c, lim, Accepted).conn.count == 0
  {
  }
}

=== FILE: directory.dfy ===
/** The client's cache of conversations, as `load_chats` fills it from the
    server's chat list, and the rule that picks the ledger file a
    conversation writes to. */
module Directory {
  import opened Wrappers
  import opened Domain

  /** One cached conversation: the server's `type`, `name` and
      `participants`, plus the two fields the client maintains itself. */
  datatype ClientChat = ClientChat(
    kind: ChatKind,
    name: string,
    participants: seq<User>,
    lastMessageTime: Option<string>,
    unreadCount: int)

  /** Index of the first participant who is not `me`. */
  function FirstOther(participants: seq<User>, me: User): (r: Option<nat>)
    ensures r.Some? ==> r.value < |participants| && participants[r.value] != me
    ensures r.Some? ==> forall j :: 0 <= j < r.value ==> participants[j] == me
    ensures r.None? ==> forall j :: 0 <= j < |participants| ==> participants[j] == me
    decreases |participants|
  {
    if participants == [] then None
    else if participants[0] != me then Some(0)
    else match FirstOther(participants[1..], me)
      case None => None
      case Some(i) => Some(i + 1)
  }

  /** `get_chat_name`: the chat's own name when it has one; for a private
      chat without one, the first participant other than `me` (`Unknown` when
      there is none); the chat id when that still leaves an empty name or the
      chat is not cached. */
  function ChatName(chats: map<ChatId, ClientChat>, cid: ChatId, me: User): (r: string)
    ensures cid !in chats ==> r == cid
    ensures cid in chats && chats[cid].name != "" ==> r == chats[cid].name
    ensures cid in chats && chats[cid].name == "" && chats[cid].kind != Private ==> r == cid
    ensures cid in chats && chats[cid].name == "" && chats[cid].kind == Private ==>
      match FirstOther(chats[cid].participants, me)
      case None => r == "Unknown"
      case Some(i) => r == (if chats[cid].participants[i] != "" then chats[cid].participants[i] else cid)
    ensures r == "" ==> cid == ""
  {
    if cid in chats then
      var chat := chats[cid];
      var name :=
        if chat.name == "" && chat.kind == Private then
          match FirstOther(chat.participants, me)
          case None => "Unknown"
          case Some(i) => chat.participants[i]
        else chat.name;
      if name != "" then name else cid
    else cid
  }

  /** The ledger file of a conversation, relative to the user's folder. */
  function ChatFile(chats: map<ChatId, ClientChat>, cid: ChatId, me: User): (f: string)
    ensures f == ChatName(chats, cid, me) + ".txt"
  {
    ChatName(chats, cid, me) + ".txt"
  }

  /** Two conversations write to the same ledger file exactly when they
      have the same name: the file key is the display name, never the id. */
  lemma SameFileIffSameName(c1: map<ChatId, ClientChat>, a: ChatId, c2: map<ChatId, ClientChat>, b: ChatId, me: User)
    ensures ChatFile(c1, a, me) == ChatFile(c2, b, me) <==> ChatName(c1, a, me) == ChatName(c2, b, me)
  {
    var x, y := ChatName(c1, a, me), ChatName(c2, b, me);
    if x + ".txt" == y + ".txt" {
      assert |x| == |y|;
      assert x == (x + ".txt")[..|x|];
      assert y == (y + ".txt")[..|y|];
    }
  }

  /** Any conversation named after a contact, a group say, shares its ledger
      file with an unnamed private chat whose first other participant is
      that contact. */
  lemma SharedLedgerFile(chats: map<ChatId, ClientChat>, me: User, g: ChatId, p: ChatId, friend: User)
    requires g in chats && chats[g].name == friend && friend != ""
    requires p in chats && chats[p].kind == Private && chats[p].name == ""
    requires FirstOther(chats[p].participants, me).Some?
    requires chats[p].participants[FirstOther(chats[p].participants, me).value] == friend
    ensures ChatFile(chats, g, me) == ChatFile(chats, p, me)
  {
  }

  /** The file name depends only on the cached entry of that conversation,
      so updating any other entry, or the counters of this one, keeps it. */
  lemma ChatNameLocal(chats: map<ChatId, ClientChat>, cid: ChatId, me: User, other: ChatId, c: ClientChat)
    requires other != cid || (cid in chats && c.kind == chats[cid].kind && c.name == chats[cid].name
                              && c.participants == chats[cid].participants)
    ensures ChatName(chats[other := c], cid, me) == ChatName(chats, cid, me)
  {
  }
}

=== FILE: dispatch.dfy ===
/** The client's handling of the server's event frames: the Socket.IO frame
    filter of `on_ws_message`, and `handle_message` for a new chat message
    and for presence changes.

    Sounds, speech and window updates are not modelled; what they depend on
    is reported as the `alert` flag of an outcome. Fetching the chat or
    friend list runs on its own thread, so here it is only requested. */
module Dispatch {
  import opened Wrappers
  import opened Text
  import opened Json
  import opened Domain
  import opened Directory
  import Ledger
  import Registry

  // ---------------------------------------------------------------------
  // Frames

  datatype Frame =
    | Pong                             // answer `3` to the server's ping
    | Enqueue(event: Json, data: Json) // hand the event to `handle_message`
    | Drop

  /** `on_ws_message`. `decode` is `json.loads`, `None` when it raises. A
      frame `2` is a ping; a frame starting with `42` carries a JSON list
      whose first two items are the event name and its data (further items
      are ignored); everything else, including undecodable text, is dropped. */
  function Classify(msg: string, decode: string -> Option<Json>): (f: Frame)
    ensures f.Pong? <==> msg == "2"
    ensures f.Enqueue? <==>
      StartsWith(msg, "42") && decode(msg[2..]).Some? && decode(msg[2..]).value.JList?
      && |decode(msg[2..]).value.items| >= 2
    ensures f.Enqueue? ==>
      f.event == decode(msg[2..]).value.items[0] && f.data == decode(msg[2..]).value.items[1]
  {
    if msg == "2" then Pong
    else if StartsWith(msg, "42") then
      match decode(msg[2..])
      case Some(JList(items)) =>
        if |items| >= 2 then Enqueue(items[0], items[1]) else Drop
      case _ => Drop
    else Drop
  }

  datatype EventKind = NewMessage | UserOnline | UserOffline | FriendRequest | FriendAccepted | Unhandled

  /** The branches of `handle_message`, chosen by the event name. */
  function Route(event: Json): (k: EventKind)
    ensures k != Unhandled ==> event.JStr?
    ensures k == NewMessage <==> event == JStr("new_message")
  {
    match event
    case JStr(t) =>
      if t == "new_message" then NewMessage
      else if t == "user_online" then UserOnline
      else if t == "user_offline" then UserOffline
      else if t == "friend_request" then FriendRequest
      else if t == "friend_accepted" then FriendAccepted
      else Unhandled
    case _ => Unhandled
  }

  // ---------------------------------------------------------------------
  // A new message

  /** The fields of a message as `handle_message` reads them; `None` where
      the key is missing. */
  datatype Incoming = Incoming(sender: Option<string>, text: Option<string>, isAction: bool, timestamp: Option<string>)

  /** `m.get('sender', 'Unknown')`. */
  function SenderOf(m: Incoming): string {
    m.sender.GetOr("Unknown")
  }

  /** `m.get('message', '')`. */
  function TextOf(m: Incoming): string {
    m.text.GetOr("")
  }

  /** A string field: `Some(None)` when missing, `None` when not a string. */
  function StrField(fields: map<string, Json>, key: string): (r: Option<Option<string>>)
    ensures r == Some(None) <==> key !in fields
    ensures r.Some? && r.value.Some? <==> key in fields && fields[key].JStr?
  {
    if key !in fields then Some(None)
    else match fields[key]
      case JStr(s) => Some(Some(s))
      case _ => None
  }

  /** The `chat_id` and `message` of a `new_message` event's data. */
  function DecodeNewMessage(data: Json): (r: Option<(ChatId, Incoming)>)
    ensures r.Some? ==> data.JObject? && "chat_id" in data.fields && data.fields["chat_id"] == JStr(r.value.0)
    ensures r.Some? ==> "message" in data.fields && data.fields["message"].JObject?
    ensures r.Some? ==> r.value.1.isAction == Truthy(Get(data.fields["message"].fields, "is_action").GetOr(JBool(false)))
  {
    match data
    case JObject(d) =>
      if "chat_id" in d && d["chat_id"].JStr? && "message" in d && d["message"].JObject? then
        var m := d["message"].fields;
        match (StrField(m, "sender"), StrField(m, "message"), StrField(m, "timestamp"))
        case (Some(sender), Some(text), Some(stamp)) =>
          var action := Truthy(Get(m, "is_action").GetOr(JBool(false)));
          Some((d["chat_id"].s, Incoming(sender, text, action, stamp)))
        case _ => None
      else None
    case _ => None
  }

  /** The client state `handle_message` touches: the chat cache, the
      unread counters and the ledger files (by name, inside the user's
      folder). */
  datatype Client = Client(chats: map<ChatId, ClientChat>, unread: map<ChatId, int>, files: map<string, string>)

  /** The settings it reads: `username`, `save_messages_locally` and `muted_chats`. */
  datatype Settings = Settings(username: User, saveLocally: bool, muted: seq<ChatId>)

  /** `save_messages_locally` as read from the settings, absent meaning on. */
  function SaveLocally(cfg: map<string, Json>): bool {
    if "save_messages_locally" in cfg then Truthy(cfg["save_messages_locally"]) else true
  }

  datatype Outcome = Outcome(client: Client, reloads: nat, alert: bool)

  /** The text of the system message that announces an admin change. */
  const TransferMarker := "transferred admin rights to"

  function GetCount(m: map<ChatId, int>, k: ChatId): int {
    if k in m then m[k] else 0
  }

  function GetFile(files: map<string, string>, f: string): string {
    if f in files then files[f] else ""
  }

  /** The `new_message` branch of `handle_message`. `focused` is the chat
      shown in the open chat window, if any; `stamp` is the local clock as
      `%Y-%m-%d %H:%M:%S` and `nowIso` the local clock in ISO form.

      The chat list is reloaded after a system notice of an admin change
      and when the chat is not cached. When saving is on, the message is
      appended to its ledger file, whoever sent it. A cached chat records
      the message's time. A message from someone else to a chat not on
      screen counts as unread. Only then is the mute list read: it silences
      the alert and nothing else. */
  function OnNewMessage(st: Client, s: Settings, focused: Option<ChatId>, cid: ChatId, m: Incoming,
                        stamp: string, nowIso: string): (o: Outcome)
    ensures o.client.chats.Keys == st.chats.Keys
    ensures o.client.files == Saved(st, s, cid, m, stamp)
    ensures o.reloads == (if SenderOf(m) == "System" && Contains(TextOf(m), TransferMarker) then 1 else 0)
                         + (if cid in st.chats then 0 else 1)
    ensures o.alert <==> SenderOf(m) != s.username && cid !in s.muted
  {
    var sender := SenderOf(m);
    var text := TextOf(m);
    var reloads := (if sender == "System" && Contains(text, TransferMarker) then 1 else 0)
                   + (if cid in st.chats then 0 else 1);
    var files := Saved(st, s, cid, m, stamp);
    var chats :=
      if cid in st.chats then st.chats[cid := st.chats[cid].(lastMessageTime := Some(m.timestamp.GetOr(nowIso)))]
      else st.chats;
    if sender == s.username then
      Outcome(Client(chats, st.unread, files), reloads, false)
    else
      var viewing := focused == Some(cid);
      var unread := if viewing then st.unread else st.unread[cid := GetCount(st.unread, cid) + 1];
      var chats' := if !viewing && cid in chats then chats[cid := chats[cid].(unreadCount := unread[cid])] else chats;
      Outcome(Client(chats', unread, files), reloads, cid !in s.muted)
  }

  /** `save_message_locally`: with saving on, exactly one line is appended,
      to the file the chat's name selects; with it off no file changes. */
  function Saved(st: Client, s: Settings, cid: ChatId, m: Incoming, stamp: string): (files: map<string, string>)
    ensures var f := ChatFile(st.chats, cid, s.username);
            && (s.saveLocally ==> files == st.files[f := GetFile(st.files, f)
                  + Ledger.FormatLine(SenderOf(m), TextOf(m), m.isAction, stamp)])
            && (!s.saveLocally ==> files == st.files)
  {
    if s.saveLocally then
      var f := ChatFile(st.chats, cid, s.username);
      st.files[f := Ledger.Append(GetFile(st.files, f), SenderOf(m), TextOf(m), m.isAction, stamp)]
    else st.files
  }

  /** The user's own messages are saved too: the early return for them
      comes after the save. */
  lemma OwnMessagesSaved(st: Client, s: Settings, focused: Option<ChatId>, cid: ChatId, m: Incoming, stamp: string, nowIso: string)
    requires s.saveLocally && SenderOf(m) == s.username
    ensures var f := ChatFile(st.chats, cid, s.username);
            OnNewMessage(st, s, focused, cid, m, stamp, nowIso).client.files[f]
            == GetFile(st.files, f) + Ledger.FormatLine(s.username, TextOf(m), m.isAction, stamp)
  {
  }

  /** What the window loads afterwards: the saved message comes back as the
      last record of its file, stamped with the local clock rather than the
      server's timestamp. */
  lemma SavedThenLoaded(st: Client, s: Settings, focused: Option<ChatId>, cid: ChatId, m: Incoming, stamp: string, nowIso: string)
    requires s.saveLocally
    requires Ledger.Terminated(GetFile(st.files, ChatFile(st.chats, cid, s.username)))
    requires Ledger.Storable(Ledger.Record(SenderOf(m), TextOf(m), m.isAction, stamp))
    ensures var o := OnNewMessage(st, s, focused, cid, m, stamp, nowIso);
            var f := ChatFile(st.chats, cid, s.username);
            f in o.client.files
            && Ledger.ParseLines(Ledger.ReadLines(o.client.files[f]))
               == Ledger.ParseLines(Ledger.ReadLines(GetFile(st.files, f)))
                  + [Ledger.Record(SenderOf(m), TextOf(m), m.isAction, stamp)]
  {
    var r := Ledger.Record(SenderOf(m), TextOf(m), m.isAction, stamp);
    var f := ChatFile(st.chats, cid, s.username);
    Ledger.AppendThenParse(GetFile(st.files, f), r);
  }

  /** `load_messages_locally`: nothing with saving off or without a file,
      otherwise the newest `limit` records the chat's file holds. */
  function LoadMessages(st: Client, s: Settings, cid: ChatId, limit: int): (r: seq<Ledger.Record>)
    ensures !s.saveLocally ==> r == []
    ensures s.saveLocally && limit >= 1 ==>
              var all := Ledger.ParseLines(Ledger.ReadLines(GetFile(st.files, ChatFile(st.chats, cid, s.username))));
              r == all[|all| - Ledger.Min(limit, |all|)..]
  {
    var f := ChatFile(st.chats, cid, s.username);
    if !s.saveLocally then []
    else if f !in st.files then
      assert Ledger.ReadLines(GetFile(st.files, f)) == [];
      []
    else
      var all := Ledger.ParseLines(Ledger.ReadLines(st.files[f]));
      assert Ledger.LoadHistory(st.files[f], limit) == Ledger.Recent(all, limit);
      Ledger.LoadHistory(st.files[f], limit)
  }

  /** With saving on, after a message arrives the chat's file, under the
      name the updated chat list gives it, is the old file with the
      message's line appended. */
  lemma ArrivalAppends(st: Client, s: Settings, focused: Option<ChatId>, cid: ChatId, m: Incoming, stamp: string, nowIso: string)
    requires s.saveLocally
    ensures var c := OnNewMessage(st, s, focused, cid, m, stamp, nowIso).client;
            var f := ChatFile(c.chats, cid, s.username);
            && f in c.files
            && c.files[f] == Ledger.Append(GetFile(st.files, ChatFile(st.chats, cid, s.username)), SenderOf(m), TextOf(m), m.isAction, stamp)
  {
    FilesStayPut(st, s, focused, cid, m, stamp, nowIso, cid);
  }

  /** With saving on, an existing file is loaded through the history limit. */
  lemma LoadsFile(c: Client, s: Settings, cid: ChatId, limit: int, file: string)
    requires s.saveLocally
    requires ChatFile(c.chats, cid, s.username) in c.files && c.files[ChatFile(c.chats, cid, s.username)] == file
    ensures LoadMessages(c, s, cid, limit) == Ledger.LoadHistory(file, limit)
  {
  }

  /** Opening a cached chat after a message arrived loads the old file with
      the message's line appended; by `Ledger.AppendThenShown` the window
      then shows that message last. (A chat that is not cached cannot be
      opened until the reload has cached it; see `UncachedArrivalLost`.) */
  lemma ArrivedThenLoaded(st: Client, s: Settings, focused: Option<ChatId>, cid: ChatId, m: Incoming, stamp: string, nowIso: string, limit: int)
    requires s.saveLocally && cid in st.chats
    ensures LoadMessages(OnNewMessage(st, s, focused, cid, m, stamp, nowIso).client, s, cid, limit)
            == Ledger.LoadHistory(Ledger.Append(GetFile(st.files, ChatFile(st.chats, cid, s.username)), SenderOf(m), TextOf(m), m.isAction, stamp), limit)
  {
    ArrivalAppends(st, s, focused, cid, m, stamp, nowIso);
    LoadsFile(OnNewMessage(st, s, focused, cid, m, stamp, nowIso).client, s, cid, limit,
              Ledger.Append(GetFile(st.files, ChatFile(st.chats, cid, s.username)), SenderOf(m), TextOf(m), m.isAction, stamp));
  }

  /** Unread counting: the chat's counter goes up by one exactly when the
      message is from someone else and the chat is not on screen; no other
      chat's counter moves. */
  lemma UnreadRule(st: Client, s: Settings, focused: Option<ChatId>, cid: ChatId, m: Incoming, stamp: string, nowIso: string, other: ChatId)
    requires other != cid
    ensures var o := OnNewMessage(st, s, focused, cid, m, stamp, nowIso);
            && GetCount(o.client.unread, cid)
               == GetCount(st.unread, cid) + (if SenderOf(m) != s.username && focused != Some(cid) then 1 else 0)
            && (other in o.client.unread <==> other in st.unread)
            && GetCount(o.client.unread, other) == GetCount(st.unread, other)
  {
  }

  /** The cached entry of a chat on screen shows its unread counter. */
  lemma UnreadShown(st: Client, s: Settings, focused: Option<ChatId>, cid: ChatId, m: Incoming, stamp: string, nowIso: string)
    requires cid in st.chats && SenderOf(m) != s.username && focused != Some(cid)
    ensures var o := OnNewMessage(st, s, focused, cid, m, stamp, nowIso);
            o.client.chats[cid].unreadCount == GetCount(st.unread, cid) + 1
  {
  }

  /** Muting only silences: the state after a message does not depend on
      the mute list. */
  lemma MuteOnlySilences(st: Client, s: Settings, muted: seq<ChatId>, focused: Option<ChatId>, cid: ChatId, m: Incoming, stamp: string, nowIso: string)
    ensures OnNewMessage(st, s, focused, cid, m, stamp, nowIso).client
            == OnNewMessage(st, s.(muted := muted), focused, cid, m, stamp, nowIso).client
  {
  }

  /** The handler itself never renames a conversation: every chat keeps its
      ledger file. The reload it asks for may, for a chat that was not
      cached (see `UncachedArrivalLost`). */
  lemma FilesStayPut(st: Client, s: Settings, focused: Option<ChatId>, cid: ChatId, m: Incoming, stamp: string, nowIso: string, any: ChatId)
    ensures var o := OnNewMessage(st, s, focused, cid, m, stamp, nowIso);
            ChatFile(o.client.chats, any, s.username) == ChatFile(st.chats, any, s.username)
  {
    var o := OnNewMessage(st, s, focused, cid, m, stamp, nowIso);
    if cid in st.chats {
      var c1 := st.chats[cid].(lastMessageTime := Some(m.timestamp.GetOr(nowIso)));
      ChatNameLocal(st.chats, any, s.username, cid, c1);
      var chats := st.chats[cid := c1];
      if o.client.chats != chats {
        ChatNameLocal(chats, any, s.username, cid, o.client.chats[cid]);
        assert o.client.chats == chats[cid := o.client.chats[cid]];
      }
    }
  }

  /** The notice the server sends when a group changes admin makes every
      online member's client reload its chat list. */
  lemma TransferNoticeReloads(st: Client, s: Settings, focused: Option<ChatId>, cid: ChatId, oldAdmin: string, newAdmin: string, stamp: string, nowIso: string)
    ensures var m := Incoming(Some("System"), Some(Registry.TransferText(oldAdmin, newAdmin)), false, None);
            OnNewMessage(st, s, focused, cid, m, stamp, nowIso).reloads >= 1
  {
    var t := Registry.TransferText(oldAdmin, newAdmin);
    var k := |oldAdmin| + 1;
    assert t == oldAdmin + " " + TransferMarker + (" " + newAdmin);
    assert t[k..k + |TransferMarker|] == TransferMarker;
    assert OccursAt(t, TransferMarker, k);
  }

  // ---------------------------------------------------------------------
  // Reloading the chat list

  /** `load_chats` once the server's list arrives, AS WRITTEN: the cache
      becomes that list and the ledger files stay where they are. */
  function ChatsLoaded(st: Client, chats: map<ChatId, ClientChat>): (c: Client)
    ensures c.chats == chats && c.unread == st.unread && c.files == st.files
  {
    st.(chats := chats)
  }

  /** A message for a chat the client has not cached yet (a group's
      welcome notice, or the first message of a private chat the other side
      started) asks for a reload and is saved under the chat id. Once the
      reload has cached the chat under a name other than its id, opening
      the chat reads the file that name selects: it shows exactly what it
      would have shown had the message never arrived. */
  lemma UncachedArrivalLost(st: Client, s: Settings, focused: Option<ChatId>, cid: ChatId, m: Incoming, stamp: string, nowIso: string,
                            chats: map<ChatId, ClientChat>, limit: int)
    requires cid !in st.chats && s.saveLocally
    requires ChatFile(chats, cid, s.username) != cid + ".txt"
    ensures var o := OnNewMessage(st, s, focused, cid, m, stamp, nowIso);
            var c := ChatsLoaded(o.client, chats);
            && o.reloads >= 1
            && cid + ".txt" in c.files
            && c.files[cid + ".txt"] == Ledger.Append(GetFile(st.files, cid + ".txt"), SenderOf(m), TextOf(m), m.isAction, stamp)
            && LoadMessages(c, s, cid, limit) == LoadMessages(st.(chats := chats), s, cid, limit)
  {
    var o := OnNewMessage(st, s, focused, cid, m, stamp, nowIso);
    assert ChatFile(st.chats, cid, s.username) == cid + ".txt";
    SameFileSameLoad(ChatsLoaded(o.client, chats), st.(chats := chats), s, cid, limit);
  }

  /** What a chat loads depends only on the file its name selects. */
  lemma SameFileSameLoad(c1: Client, c2: Client, s: Settings, cid: ChatId, limit: int)
    requires c1.chats == c2.chats
    requires var f := ChatFile(c1.chats, cid, s.username);
             (f in c1.files <==> f in c2.files) && (f in c1.files ==> c1.files[f] == c2.files[f])
    ensures LoadMessages(c1, s, cid, limit) == LoadMessages(c2, s, cid, limit)
  {
  }

  /** Such chats are common: once cached, the private chat with `ann` is
      read from `ann.txt` and a group named `team` from `team.txt`, not
      from the files named after their ids. */
  lemma RenamedOnReload()
    ensures ChatFile(map["chat_1" := ClientChat(Private, "", ["me", "ann"], None, 0)], "chat_1", "me") == "ann.txt"
    ensures ChatFile(map["chat_2" := ClientChat(Group, "team", ["me", "ann"], None, 0)], "chat_2", "me") == "team.txt"
    ensures "ann.txt" != "chat_1.txt" && "team.txt" != "chat_2.txt"
  {
    assert FirstOther(["me", "ann"], "me") == Some(1);
  }

  /** The reload as evidently intended: it also moves what was saved under
      the id of the chat that asked for it onto the end of the file the
      chat's name now selects. Every other file stays as it was. */
  function ChatsLoadedFixed(st: Client, chats: map<ChatId, ClientChat>, cid: ChatId, me: User): (c: Client)
    ensures c.chats == chats && c.unread == st.unread
    ensures var from, to := cid + ".txt", ChatFile(chats, cid, me);
            && (from == to || from !in st.files ==> c.files == st.files)
            && (from != to && from in st.files ==>
                  && from !in c.files && to in c.files
                  && c.files[to] == GetFile(st.files, to) + st.files[from]
                  && forall f :: f in st.files && f != from && f != to ==> f in c.files && c.files[f] == st.files[f])
  {
    var from, to := cid + ".txt", ChatFile(chats, cid, me);
    if from == to || from !in st.files then st.(chats := chats)
    else st.(chats := chats, files := (st.files - {from})[to := GetFile(st.files, to) + st.files[from]])
  }

  /** After a message for an uncached chat and the corrected reload, the
      chat's file is the message's file moved onto the end of the file the
      chat's name selects (or that file itself, when the name is the id). */
  lemma RekeyedFile(st: Client, s: Settings, focused: Option<ChatId>, cid: ChatId, m: Incoming, stamp: string, nowIso: string,
                    chats: map<ChatId, ClientChat>)
    requires cid !in st.chats && s.saveLocally
    ensures var c := ChatsLoadedFixed(OnNewMessage(st, s, focused, cid, m, stamp, nowIso).client, chats, cid, s.username);
            var from, to := cid + ".txt", ChatFile(chats, cid, s.username);
            var a := Ledger.Append(GetFile(st.files, from), SenderOf(m), TextOf(m), m.isAction, stamp);
            to in c.files && c.files[to] == (if from == to then a else GetFile(st.files, to) + a)
  {
    var o := OnNewMessage(st, s, focused, cid, m, stamp, nowIso);
    assert ChatFile(st.chats, cid, s.username) == cid + ".txt";
  }

  /** With the correction, a message that arrived before its chat was
      cached is shown last when the chat is opened after the reload,
      whatever name the chat turns out to have. */
  lemma UncachedArrivalKept(st: Client, s: Settings, focused: Option<ChatId>, cid: ChatId, m: Incoming, stamp: string, nowIso: string,
                            chats: map<ChatId, ClientChat>, limit: int)
    requires cid !in st.chats && s.saveLocally && limit >= 1
    requires Ledger.Terminated(GetFile(st.files, cid + ".txt"))
    requires Ledger.Terminated(GetFile(st.files, ChatFile(chats, cid, s.username)))
    requires Ledger.Storable(Ledger.Record(SenderOf(m), TextOf(m), m.isAction, stamp))
    ensures var c := ChatsLoadedFixed(OnNewMessage(st, s, focused, cid, m, stamp, nowIso).client, chats, cid, s.username);
            var shown := LoadMessages(c, s, cid, limit);
            shown != [] && shown[|shown| - 1] == Ledger.Record(SenderOf(m), TextOf(m), m.isAction, stamp)
  {
    var from, to := cid + ".txt", ChatFile(chats, cid, s.username);
    var a := Ledger.Append(GetFile(st.files, from), SenderOf(m), TextOf(m), m.isAction, stamp);
    var c := ChatsLoadedFixed(OnNewMessage(st, s, focused, cid, m, stamp, nowIso).client, chats, cid, s.username);
    RekeyedFile(st, s, focused, cid, m, stamp, nowIso, chats);
    KeptFromFile(c, s, cid, limit, GetFile(st.files, to), GetFile(st.files, from), from == to,
                 SenderOf(m), TextOf(m), m.isAction, stamp);
  }

  /** A chat whose file is a message appended to `moved`, read in place or
      moved onto the end of `target`, loads with that message last. */
  lemma KeptFromFile(c: Client, s: Settings, cid: ChatId, limit: int, target: string, moved: string, inPlace: bool,
                     sender: string, text: string, isAction: bool, stamp: string)
    requires s.saveLocally && limit >= 1
    requires Ledger.Terminated(moved) && (!inPlace ==> Ledger.Terminated(target))
    requires Ledger.Storable(Ledger.Record(sender, text, isAction, stamp))
    requires var a := Ledger.Append(moved, sender, text, isAction, stamp);
             var f := ChatFile(c.chats, cid, s.username);
             f in c.files && c.files[f] == (if inPlace then a else target + a)
    ensures var shown := LoadMessages(c, s, cid, limit);
            shown != [] && shown[|shown| - 1] == Ledger.Record(sender, text, isAction, stamp)
  {
    var a := Ledger.Append(moved, sender, text, isAction, stamp);
    var file := if inPlace then a else target + a;
    Ledger.MovedThenShown(file, target, moved, inPlace, sender, text, isAction, stamp, limit);
    ShownFromFile(c, s, cid, limit, file, Ledger.Record(sender, text, isAction, stamp));
  }

  /** A chat whose file shows `last` last loads with `last` last. */
  lemma ShownFromFile(c: Client, s: Settings, cid: ChatId, limit: int, file: string, last: Ledger.Record)
    requires s.saveLocally
    requires ChatFile(c.chats, cid, s.username) in c.files && c.files[ChatFile(c.chats, cid, s.username)] == file
    requires Ledger.LoadHistory(file, limit) != [] && Ledger.LoadHistory(file, limit)[|Ledger.LoadHistory(file, limit)| - 1] == last
    ensures var shown := LoadMessages(c, s, cid, limit); shown != [] && shown[|shown| - 1] == last
  {
    LoadsFile(c, s, cid, limit, file);
  }

  // ---------------------------------------------------------------------
  // Presence

  /** An entry of the client's friend list. */
  datatype FriendView = FriendView(username: User, status: string)

  /** Index of the first entry for user `u`. */
  function FindFriend(friends: seq<FriendView>, u: User): (r: Option<nat>)
    ensures r.Some? ==> r.value < |friends| && friends[r.value].username == u
    ensures r.Some? ==> forall j :: 0 <= j < r.value ==> friends[j].username != u
    ensures r.None? ==> forall j :: 0 <= j < |friends| ==> friends[j].username != u
    decreases |friends|
  {
    if friends == [] then None
    else if friends[0].username == u then Some(0)
    else match FindFriend(friends[1..], u)
      case None => None
      case Some(i) => Some(i + 1)
  }

  /** `user_online` / `user_offline`: the first entry for the user takes the
      new status (the loop stops there); a user not on the list changes nothing. */
  function SetPresence(friends: seq<FriendView>, u: User, status: string): (r: seq<FriendView>)
    ensures |r| == |friends|
    ensures FindFriend(friends, u).None? ==> r == friends
    ensures FindFriend(friends, u).Some? ==>
      r[FindFriend(friends, u).value] == FriendView(u, status)
      && forall j :: 0 <= j < |r| && j != FindFriend(friends, u).value ==> r[j] == friends[j]
  {
    match FindFriend(friends, u)
    case None => friends
    case Some(i) => friends[i := FriendView(u, status)]
  }

  /** Announcing the same presence twice is the same as once. */
  lemma PresenceIdempotent(friends: seq<FriendView>, u: User, status: string)
    ensures SetPresence(SetPresence(friends, u, status), u, status) == SetPresence(friends, u, status)
  {
    var r := SetPresence(friends, u, status);
    match FindFriend(friends, u)
    case None =>
    case Some(i) =>
      assert FindFriend(r, u) == Some(i) by {
        FindFriendSame(friends, r, u, i);
      }
  }

  /** Two lists that agree on which entries belong to `u` up to and
      including the first one find the same first entry. */
  lemma {:induction false} FindFriendSame(a: seq<FriendView>, b: seq<FriendView>, u: User, i: nat)
    requires FindFriend(a, u) == Some(i) && |a| == |b|
    requires b[i].username == u && forall j :: 0 <= j < i ==> b[j] == a[j]
    ensures FindFriend(b, u) == Some(i)
    decreases i
  {
    if i > 0 {
      assert a[0].username != u && b[0] == a[0];
      var a', b' := a[1..], b[1..];
      assert FindFriend(a', u) == Some(i - 1);
      assert b'[i - 1] == b[i];
      assert forall j :: 0 <= j < i - 1 ==> b'[j] == b[j + 1] && a'[j] == a[j + 1];
      FindFriendSame(a', b', u, i - 1);
    }
  }
}

=== FILE: domain.dfy ===
/** Names shared by the client and the relay server. */
module Domain {

  /** A user name as the server stores it (the key of the users index). */
  type User = string

  /** A conversation id, `chat_<milliseconds>` when the server mints it. */
  type ChatId = string

  /** The `type` field of a conversation. The code only ever compares it with
      `'private'` and `'group'`; every other tag behaves the same, as `Other`. */
  datatype ChatKind = Private | Group | Other

  /** An HTTP error answer: the status code and the `error` text. */
  datatype ApiError = ApiError(code: int, message: string)
}

=== FILE: friends.dfy ===
/** The server's friend lists: one `friends.json` per user, mapping each
    other user to the state of the relation as that user sees it, and the
    four requests that change them. */
module Friends {
  import opened Wrappers
  import opened Text
  import opened Lists
  import opened Domain

  /** `'pending'` (I asked), `'request'` (I was asked), `'accepted'`. */
  datatype Status = Pending | Request | Accepted

  /** Every user's friend list; a user without a file has an empty list. */
  type Graph = map<User, map<User, Status>>

  /** `load_user_friends`. */
  function ListOf(g: Graph, u: User): (l: map<User, Status>)
    ensures u !in g ==> l == map[]
  {
    if u in g then g[u] else map[]
  }

  /** What `a`'s list says about `b`. */
  function Entry(g: Graph, a: User, b: User): (r: Option<Status>)
    ensures r.Some? <==> b in ListOf(g, a)
    ensures r.Some? ==> r.value == ListOf(g, a)[b]
  {
    var l := ListOf(g, a);
    if b in l then Some(l[b]) else None
  }

  /** Writes `a`'s entry for `b`. */
  function Set(g: Graph, a: User, b: User, st: Status): (g': Graph)
    ensures Entry(g', a, b) == Some(st)
    ensures forall x, y :: (x, y) != (a, b) ==> Entry(g', x, y) == Entry(g, x, y)
  {
    g[a := ListOf(g, a)[b := st]]
  }

  /** Drops `a`'s entry for `b`; nothing is written when there is none. */
  function Del(g: Graph, a: User, b: User): (g': Graph)
    ensures Entry(g', a, b) == None
    ensures forall x, y :: (x, y) != (a, b) ==> Entry(g', x, y) == Entry(g, x, y)
  {
    if b in ListOf(g, a) then g[a := ListOf(g, a) - {b}] else g
  }

  /** The two lists agree about every relation: a `pending` entry faces a
      `request` entry and the other way round, and `accepted` faces
      `accepted`. */
  ghost predicate Paired(g: Graph) {
    forall a, b ::
      && (Entry(g, a, b) == Some(Pending) ==> Entry(g, b, a) == Some(Request))
      && (Entry(g, a, b) == Some(Request) ==> Entry(g, b, a) == Some(Pending))
      && (Entry(g, a, b) == Some(Accepted) ==> Entry(g, b, a) == Some(Accepted))
  }

  /** A request's answer: the new lists, or an error that leaves them as they were. */
  type Answer = Result<Graph, ApiError>

  /** `add_friend`: the name is stripped and must be non-empty, not the
      caller, a registered user and not already on the caller's list. Then
      the caller's entry becomes `pending` and the other side's `request`. */
  function Add(g: Graph, users: set<User>, user: User, name: string): (r: Answer)
    ensures var f := Strip(name);
            && (f == "" ==> r == Failure(ApiError(400, "Friend username required")))
            && (f != "" && f == user ==> r == Failure(ApiError(400, "Cannot add yourself")))
            && (f != "" && f != user && f !in users ==> r == Failure(ApiError(404, "User not found")))
            && (f != "" && f != user && f in users && Entry(g, user, f).Some? ==>
                  r == Failure(ApiError(409, "Friend request already sent or already friends")))
            && (r.Success? <==> f != "" && f != user && f in users && Entry(g, user, f).None?)
    ensures r.Success? ==>
              var f := Strip(name);
              && Entry(r.value, user, f) == Some(Pending) && Entry(r.value, f, user) == Some(Request)
              && forall x, y :: (x, y) != (user, f) && (x, y) != (f, user) ==> Entry(r.value, x, y) == Entry(g, x, y)
  {
    var f := Strip(name);
    if f == "" then Failure(ApiError(400, "Friend username required"))
    else if f == user then Failure(ApiError(400, "Cannot add yourself"))
    else if f !in users then Failure(ApiError(404, "User not found"))
    else if f in ListOf(g, user) then Failure(ApiError(409, "Friend request already sent or already friends"))
    else Success(Set(Set(g, user, f, Pending), f, user, Request))
  }

  /** `accept_friend`: only a `request` entry can be accepted; both sides
      become `accepted`. */
  function Accept(g: Graph, user: User, name: string): (r: Answer)
    ensures var f := Strip(name);
            && (r.Success? <==> Entry(g, user, f) == Some(Request))
            && (r.Failure? ==> r.error == ApiError(404, "Friend request not found"))
    ensures r.Success? ==>
              var f := Strip(name);
              && Entry(r.value, user, f) == Some(Accepted) && Entry(r.value, f, user) == Some(Accepted)
              && forall x, y :: (x, y) != (user, f) && (x, y) != (f, user) ==> Entry(r.value, x, y) == Entry(g, x, y)
  {
    var f := Strip(name);
    if Entry(g, user, f) != Some(Request) then Failure(ApiError(404, "Friend request not found"))
    else Success(Set(Set(g, user, f, Accepted), f, user, Accepted))
  }

  /** `reject_friend`: only a `request` entry can be rejected; it is
      dropped, and the other side's entry is dropped only if it is `pending`. */
  function Reject(g: Graph, user: User, name: string): (r: Answer)
    ensures var f := Strip(name);
            && (r.Success? <==> Entry(g, user, f) == Some(Request))
            && (r.Failure? ==> r.error == ApiError(404, "Friend request not found"))
    ensures r.Success? ==>
              var f := Strip(name);
              && Entry(r.value, user, f) == None
              && (f != user ==>
                    Entry(r.value, f, user) == (if Entry(g, f, user) == Some(Pending) then None else Entry(g, f, user)))
              && forall x, y :: (x, y) != (user, f) && (x, y) != (f, user) ==> Entry(r.value, x, y) == Entry(g, x, y)
  {
    var f := Strip(name);
    if Entry(g, user, f) != Some(Request) then Failure(ApiError(404, "Friend request not found"))
    else
      var g1 := Del(g, user, f);
      Success(if Entry(g1, f, user) == Some(Pending) then Del(g1, f, user) else g1)
  }

  /** `delete_friend`: whatever the relation, both entries go. */
  function Delete(g: Graph, user: User, name: string): (r: Answer)
    ensures Strip(name) == "" <==> r == Failure(ApiError(400, "Friend username required"))
    ensures r.Success? ==>
              var f := Strip(name);
              && Entry(r.value, user, f) == None && Entry(r.value, f, user) == None
              && forall x, y :: (x, y) != (user, f) && (x, y) != (f, user) ==> Entry(r.value, x, y) == Entry(g, x, y)
  {
    var f := Strip(name);
    if f == "" then Failure(ApiError(400, "Friend username required"))
    else Success(Del(Del(g, user, f), f, user))
  }

  // ---------------------------------------------------------------------
  // The pairing is kept

  lemma AddKeepsPaired(g: Graph, users: set<User>, user: User, name: string)
    requires Paired(g)
    ensures Add(g, users, user, name).Success? ==> Paired(Add(g, users, user, name).value)
  {
    var r := Add(g, users, user, name);
    if r.Success? {
      var f := Strip(name);
      // Without an entry of the caller's, the other side has none either.
      assert Entry(g, f, user) == None;
    }
  }

  lemma AcceptKeepsPaired(g: Graph, user: User, name: string)
    requires Paired(g)
    ensures Accept(g, user, name).Success? ==> Paired(Accept(g, user, name).value)
  {
  }

  lemma RejectKeepsPaired(g: Graph, user: User, name: string)
    requires Paired(g)
    ensures Reject(g, user, name).Success? ==> Paired(Reject(g, user, name).value)
  {
    var r := Reject(g, user, name);
    if r.Success? {
      var f := Strip(name);
      assert Entry(g, f, user) == Some(Pending);
    }
  }

  lemma DeleteKeepsPaired(g: Graph, user: User, name: string)
    requires Paired(g)
    ensures Delete(g, user, name).Success? ==> Paired(Delete(g, user, name).value)
  {
  }

  /** Rejecting a request also withdraws it from the asker's list. */
  lemma RejectWithdraws(g: Graph, user: User, name: string)
    requires Paired(g) && Reject(g, user, name).Success?
    ensures Entry(Reject(g, user, name).value, Strip(name), user) == None
  {
    assert Entry(g, Strip(name), user) == Some(Pending);
  }

  /** Deleting twice is deleting once. */
  lemma DeleteIdempotent(g: Graph, user: User, name: string)
    requires Delete(g, user, name).Success?
    ensures Delete(Delete(g, user, name).value, user, name) == Delete(g, user, name)
  {
    var f := Strip(name);
    var g1 := Delete(g, user, name).value;
    assert f !in ListOf(g1, user) && user !in ListOf(g1, f);
  }

  /** A request, then its acceptance, makes two friends; a request then its
      rejection leaves the two lists without each other. */
  lemma AddThenAnswer(g: Graph, users: set<User>, user: User, friend: User)
    requires Add(g, users, user, friend).Success? && Strip(friend) == friend && Strip(user) == user
    ensures var g1 := Add(g, users, user, friend).value;
            && Accept(g1, friend, user).Success?
            && Entry(Accept(g1, friend, user).value, user, friend) == Some(Accepted)
            && Entry(Accept(g1, friend, user).value, friend, user) == Some(Accepted)
            && Reject(g1, friend, user).Success?
            && Entry(Reject(g1, friend, user).value, user, friend) == None
            && Entry(Reject(g1, friend, user).value, friend, user) == None
  {
  }

  // ---------------------------------------------------------------------
  // Listing

  /** One accepted friend as listed: the name and whether it is online. */
  datatype Listed = Listed(name: User, online: bool)

  datatype FriendsView = FriendsView(friends: seq<Listed>, outgoing: seq<User>, incoming: seq<User>)

  /** `get_friends`: walks the list in the order its keys are stored and
      sorts each name into accepted friends (with presence), outgoing and
      incoming requests. */
  function Partition(l: map<User, Status>, keys: seq<User>, online: set<User>): (v: FriendsView)
    requires forall i :: 0 <= i < |keys| ==> keys[i] in l
    ensures |v.friends| + |v.outgoing| + |v.incoming| == |keys|
    ensures forall x :: x in keys ==>
              && (Listed(x, x in online) in v.friends <==> l[x] == Accepted)
              && (x in v.outgoing <==> l[x] == Pending)
              && (x in v.incoming <==> l[x] == Request)
    ensures forall e :: e in v.friends ==> e.name in keys && e.online == (e.name in online)
    ensures forall x :: x in v.outgoing ==> x in keys
    ensures forall x :: x in v.incoming ==> x in keys
  {
    if keys == [] then FriendsView([], [], [])
    else
      var x := keys[0];
      var rest := Partition(l, keys[1..], online);
      assert forall y :: y in keys <==> y == x || y in keys[1..];
      match l[x]
      case Accepted => FriendsView([Listed(x, x in online)] + rest.friends, rest.outgoing, rest.incoming)
      case Pending => FriendsView(rest.friends, [x] + rest.outgoing, rest.incoming)
      case Request => FriendsView(rest.friends, rest.outgoing, [x] + rest.incoming)
  }

  /** The caller's list, in its stored key order `keys` (which names every
      key once). */
  function GetFriends(g: Graph, user: User, keys: seq<User>, online: set<User>): (v: FriendsView)
    requires forall i :: 0 <= i < |keys| ==> keys[i] in ListOf(g, user)
    requires forall x :: x in ListOf(g, user) ==> x in keys
    ensures forall x :: x in ListOf(g, user) ==>
              && (Listed(x, x in online) in v.friends <==> ListOf(g, user)[x] == Accepted)
              && (x in v.outgoing <==> ListOf(g, user)[x] == Pending)
              && (x in v.incoming <==> ListOf(g, user)[x] == Request)
    ensures forall e :: e in v.friends ==> e.name in ListOf(g, user) && e.online == (e.name in online)
    ensures forall x :: x in v.outgoing ==> x in ListOf(g, user)
    ensures forall x :: x in v.incoming ==> x in ListOf(g, user)
  {
    Partition(ListOf(g, user), keys, online)
  }

  /** On paired lists, the caller's outgoing requests are exactly the other
      users' incoming ones. */
  lemma ListingsAgree(g: Graph, a: User, b: User, ka: seq<User>, kb: seq<User>, online: set<User>)
    requires Paired(g)
    requires forall i :: 0 <= i < |ka| ==> ka[i] in ListOf(g, a)
    requires forall x :: x in ListOf(g, a) ==> x in ka
    requires forall i :: 0 <= i < |kb| ==> kb[i] in ListOf(g, b)
    requires forall x :: x in ListOf(g, b) ==> x in kb
    ensures b in GetFriends(g, a, ka, online).outgoing <==> a in GetFriends(g, b, kb, online).incoming
    ensures Listed(b, b in online) in GetFriends(g, a, ka, online).friends
            <==> Listed(a, a in online) in GetFriends(g, b, kb, online).friends
  {
    var la, lb := ListOf(g, a), ListOf(g, b);
    if b in la {
      assert Entry(g, a, b) == Some(la[b]);
    }
    if a in lb {
      assert Entry(g, b, a) == Some(lb[a]);
    }
  }
}

=== FILE: json.dfy ===
/** The decoded JSON values that travel in event frames and the settings file
    (floating-point numbers are not modelled). */
module Json {
  import opened Wrappers

  datatype Json =
    | JNull
    | JBool(b: bool)
    | JInt(i: int)
    | JStr(s: string)
    | JList(items: seq<Json>)
    | JObject(fields: map<string, Json>)

  /** `obj.get(key)` on a decoded object: `None` when the key is missing. */
  function Get(fields: map<string, Json>, key: string): Option<Json> {
    if key in fields then Some(fields[key]) else None
  }

  /** Python truthiness of a decoded JSON value (`if value:`). */
  predicate Truthy(j: Json) {
    match j
    case JNull => false
    case JBool(b) => b
    case JInt(i) => i != 0
    case JStr(s) => s != ""
    case JList(items) => items != []
    case JObject(fields) => fields != map[]
  }
}

=== FILE: ledger.dfy ===
/** The client's local message ledger: one text file per conversation, one
    line per message, appended as messages arrive and read back (newest
    `max_messages_to_load` only) when a conversation is opened.

    A file is modelled as its text. Writing appends one formatted line;
    reading follows Python's text-mode line iteration (a line ends at `\n`,
    `\r` or `\r\n`), strips each line and parses it. */
module Ledger {
  import opened Wrappers
  import opened Text

  /** One message as the history view holds it after loading. */
  datatype Record = Record(sender: string, text: string, isAction: bool, timestamp: string)

  /** Everything before the last `" ; "` of a line: `sender; text` for a
      regular message, `sender text` for an action (`/me`) message. */
  function Content(r: Record): string {
    if r.isAction then r.sender + " " + r.text else r.sender + "; " + r.text
  }

  /** The line written for a message (without the terminating `\n`). */
  function Body(r: Record): string {
    Content(r) + " ; " + r.timestamp
  }

  /** The line `save_message_locally` appends for a message, stamped with the
      local clock `stamp` (formatted `%Y-%m-%d %H:%M:%S`), never with the
      server's timestamp. */
  function FormatLine(sender: string, text: string, isAction: bool, stamp: string): (line: string)
    ensures |line| > 0 && line[|line| - 1] == '\n'
    ensures line[..|line| - 1] == Body(Record(sender, text, isAction, stamp))
  {
    if isAction then sender + " " + text + " ; " + stamp + "\n"
    else sender + "; " + text + " ; " + stamp + "\n"
  }

  /** The file after appending one message (files are only ever appended to). */
  function Append(file: string, sender: string, text: string, isAction: bool, stamp: string): (file': string)
    ensures file' == file + FormatLine(sender, text, isAction, stamp)
    ensures Terminated(file) ==> Terminated(file')
  {
    file + FormatLine(sender, text, isAction, stamp)
  }

  /** A file made only of whole lines: empty, or ending with `\n`. Appending
      keeps a file in this shape. */
  predicate Terminated(file: string) {
    file == "" || file[|file| - 1] == '\n'
  }

  // ---------------------------------------------------------------------
  // Reading lines

  /** Index of the first line break, or `|s|` when there is none. */
  function BreakAt(s: string): (i: nat)
    ensures i <= |s|
    ensures i < |s| ==> IsLineBreak(s[i])
    ensures forall k :: 0 <= k < i ==> !IsLineBreak(s[k])
    decreases |s|
  {
    if |s| == 0 || IsLineBreak(s[0]) then 0 else 1 + BreakAt(s[1..])
  }

  /** Length of the line terminator at `i`: `\r\n` counts as one terminator. */
  function BreakWidth(s: string, i: nat): nat
    requires i < |s|
  {
    if s[i] == '\r' && i + 1 < |s| && s[i + 1] == '\n' then 2 else 1
  }

  /** `for line in f` on a text-mode file: the lines without their terminators;
      a last line without a terminator is still a line, an empty file has none. */
  function ReadLines(s: string): (lines: seq<string>)
    ensures forall k :: 0 <= k < |lines| ==> NoLineBreaks(lines[k])
    decreases |s|
  {
    if s == "" then []
    else
      var i := BreakAt(s);
      if i == |s| then [s]
      else [s[..i]] + ReadLines(s[i + BreakWidth(s, i)..])
  }

  // ---------------------------------------------------------------------
  // Parsing one line

  /** How the part before the last `" ; "` is read: `sender; text` when it
      contains `"; "` (cut at the first one), otherwise an action `sender text`
      cut at the first space, or a bare sender with empty text. */
  function ParseContent(content: string, stamp: string): (r: Record)
    ensures r.timestamp == stamp
    ensures !r.isAction <==> Contains(content, "; ")
    ensures !r.isAction ==> !Contains(r.sender, "; ") && content == r.sender + "; " + r.text
    ensures r.isAction ==> !Contains(r.sender, " ")
    ensures r.isAction ==> (content == r.sender + " " + r.text || (r.text == "" && content == r.sender))
  {
    if Contains(content, "; ") then
      var (sender, text) := SplitOnce(content, "; ");
      Record(sender, text, false, stamp)
    else if Contains(content, " ") then
      var (sender, text) := SplitOnce(content, " ");
      Record(sender, text, true, stamp)
    else
      Record(content, "", true, stamp)
  }

  /** How `load_messages_locally` reads one line: strip it; a blank line or a
      line without `" ; "` gives nothing; otherwise the timestamp is the last
      `" ; "`-separated field and the rest is read by `ParseContent`. */
  function ParseLine(line: string): (r: Option<Record>)
    ensures r.Some? <==> Contains(Strip(line), " ; ")
    ensures r.Some? ==> !Contains(r.value.timestamp, " ; ")
    ensures r.Some? && !r.value.isAction ==>
      !Contains(r.value.sender, "; ") && Strip(line) == Body(r.value)
    ensures r.Some? && r.value.isAction ==>
      !Contains(r.value.sender, " ") &&
      (Strip(line) == Body(r.value) ||
       (r.value.text == "" && Strip(line) == r.value.sender + " ; " + r.value.timestamp))
  {
    var t := Strip(line);
    if t == "" then None
    else
      var parts := Split(t, " ; ");
      SplitCount(t, " ; ");
      if |parts| < 2 then None
      else
        JoinLast(parts, " ; ");
        Some(ParseContent(Join(parts[..|parts| - 1], " ; "), parts[|parts| - 1]))
  }

  /** A split has two or more parts exactly when the separator occurs. */
  lemma SplitCount(s: string, sep: string)
    requires |sep| > 0
    ensures |Split(s, sep)| >= 2 <==> Contains(s, sep)
  {
  }

  /** Joining all parts is joining all but the last, then the separator and the last. */
  lemma {:induction false} JoinLast(parts: seq<string>, sep: string)
    requires |parts| >= 2
    ensures Join(parts, sep) == Join(parts[..|parts| - 1], sep) + sep + parts[|parts| - 1]
    decreases |parts|
  {
    if |parts| > 2 {
      JoinLast(parts[1..], sep);
      assert parts[1..][..|parts| - 2] == parts[..|parts| - 1][1..];
    }
  }

  // ---------------------------------------------------------------------
  // Loading a file

  /** The values `f` extracts from `xs`, in order; elements it rejects are skipped. */
  function Collect<A, B>(xs: seq<A>, f: A -> Option<B>): (ys: seq<B>)
    ensures |ys| <= |xs|
    decreases |xs|
  {
    if xs == [] then []
    else
      match f(xs[0])
      case Some(y) => [y] + Collect(xs[1..], f)
      case None => Collect(xs[1..], f)
  }

  /** The records of the parsable lines, in file order. */
  function ParseLines(lines: seq<string>): seq<Record> {
    Collect(lines, ParseLine)
  }

  /** Python's `s[start:]` for any integer `start`. */
  function SliceFrom<T>(s: seq<T>, start: int): seq<T> {
    var k := if start < 0 then (if |s| + start < 0 then 0 else |s| + start)
             else (if start > |s| then |s| else start);
    s[k..]
  }

  function Min(a: int, b: int): int {
    if a <= b then a else b
  }

  /** The message limit: `messages[-limit:]` when there are more than `limit`.
      A positive limit keeps the newest `limit`; because `-0 == 0` in Python a
      limit of 0 keeps everything, and a negative limit drops a prefix. */
  function Recent<T>(msgs: seq<T>, limit: int): (r: seq<T>)
    ensures limit >= 1 ==> r == msgs[|msgs| - Min(limit, |msgs|)..]
    ensures limit == 0 ==> r == msgs
    ensures limit < 0 ==> r == msgs[Min(-limit, |msgs|)..]
  {
    if |msgs| > limit then SliceFrom(msgs, -limit) else msgs
  }

  /** A non-empty suffix ends with the sequence's last element. */
  lemma SuffixLast<T>(all: seq<T>, n: int)
    requires 1 <= n <= |all|
    ensures all[|all| - n..] != [] && all[|all| - n..][n - 1] == all[|all| - 1]
  {
  }

  /** `load_messages_locally` on the text of an existing ledger file. */
  function LoadHistory(file: string, limit: int): seq<Record> {
    Recent(ParseLines(ReadLines(file)), limit)
  }

  // ---------------------------------------------------------------------
  // What the round trip needs

  /** The end of the rendered content cannot begin an overlapping `" ; "`. */
  predicate SafeTail(text: string) {
    !EndsWith(" " + text, " ;")
  }

  /** The conditions under which a written line reads back as the same record:
      the sender has no whitespace and no `;` (and is non-empty for an action,
      whose line would otherwise start with a space that strip removes); the
      text has no line break, does not end in `" ;"` (nor is `";"`), and for an
      action has no `"; "`; the timestamp is non-empty, has no line break, no
      `" ; "`, and does not end in whitespace. */
  predicate Storable(r: Record) {
    && NoSpaces(r.sender) && NoChar(r.sender, ';')
    && (r.isAction ==> r.sender != "")
    && NoLineBreaks(r.text) && SafeTail(r.text)
    && (r.isAction ==> !Contains(r.text, "; "))
    && r.timestamp != "" && NoLineBreaks(r.timestamp)
    && !Contains(r.timestamp, " ; ") && !IsSpace(r.timestamp[|r.timestamp| - 1])
  }

  /** The text of a file written by appending `rs` in order. */
  function Render(rs: seq<Record>): string
    decreases |rs|
  {
    if rs == [] then ""
    else FormatLine(rs[0].sender, rs[0].text, rs[0].isAction, rs[0].timestamp) + Render(rs[1..])
  }

  /** When `p` lacks the first character of `pat`, the first `pat` in
      `p + pat + rest` is the one right after `p`. */
  lemma FirstAfter(p: string, pat: string, rest: string)
    requires |pat| > 0 && NoChar(p, pat[0])
    ensures Find(p + pat + rest, pat) == Some(|p|)
    ensures SplitOnce(p + pat + rest, pat) == (p, rest)
  {
    var s := p + pat + rest;
    assert s[|p|..|p| + |pat|] == pat;
    forall k | 0 <= k < |p|
      ensures !OccursAt(s, pat, k)
    {
      assert s[k] == p[k];
      if k + |pat| <= |s| {
        assert s[k..k + |pat|][0] == s[k];
      }
    }
    FindIs(s, pat, |p|);
    assert s[..|p|] == p && s[|p| + |pat|..] == rest;
  }

  /** An action's content holds no `"; "` when neither its sender nor its text does. */
  lemma ActionContentHasNoSemicolonSpace(r: Record)
    requires r.isAction && NoChar(r.sender, ';') && !Contains(r.text, "; ")
    ensures !Contains(Content(r), "; ")
  {
    var c := Content(r);
    var n := |r.sender|;
    assert c == r.sender + " " + r.text;
    forall k | 0 <= k && k + 2 <= |c|
      ensures !OccursAt(c, "; ", k)
    {
      assert c[k..k + 2][0] == c[k];
      if k < n {
        assert c[k] == r.sender[k];
      } else if k == n {
        assert c[k] == ' ';
      } else {
        var j := k - n - 1;
        assert c[k] == r.text[j] && c[k + 1] == r.text[j + 1];
        assert c[k..k + 2] == r.text[j..j + 2];
        assert !OccursAt(r.text, "; ", j);
      }
    }
  }

  /** `z` ends `x + y` exactly when it ends `y`, if it is no longer than `y`. */
  lemma EndsWithConcat(x: string, y: string, z: string)
    requires |z| <= |y|
    ensures EndsWith(x + y, z) <==> EndsWith(y, z)
  {
    assert (x + y)[|x + y| - |z|..] == y[|y| - |z|..];
  }

  /** The content of a storable record cannot begin an overlapping `" ; "`. */
  lemma ContentTail(r: Record)
    requires SafeTail(r.text)
    ensures !EndsWith(Content(r), " ;")
  {
    var head := if r.isAction then r.sender else r.sender + ";";
    var tail := " " + r.text;
    assert Content(r) == head + tail;
    if |r.text| == 0 {
      assert tail == " ";
      NotEndingInSemicolon(head + tail);
    } else {
      EndsWithConcat(head, tail, " ;");
    }
  }

  /** A string whose last character is not `;` does not end in `" ;"`. */
  lemma NotEndingInSemicolon(s: string)
    requires s != [] && s[|s| - 1] != ';'
    ensures !EndsWith(s, " ;")
  {
    assert |s| >= 2 ==> s[|s| - 2..][1] == s[|s| - 1];
  }

  /** A written line is its own strip: it starts with the sender (or `;` when
      a regular message has no sender) and ends with the timestamp. */
  lemma BodyIsStripped(r: Record)
    requires Storable(r)
    ensures Strip(Body(r)) == Body(r)
  {
    var b := Body(r);
    assert b[|b| - 1] == r.timestamp[|r.timestamp| - 1];
    if r.sender == "" {
      assert b[0] == ';';
    } else {
      assert b[0] == r.sender[0];
    }
    StripOfTrimmed(b);
  }

  /** A line splits at `" ; "` into its content's parts and the timestamp. */
  lemma SplitBody(r: Record)
    requires SafeTail(r.text) && !Contains(r.timestamp, " ; ")
    ensures Split(Body(r), " ; ") == Split(Content(r), " ; ") + [r.timestamp]
  {
    var c := Content(r);
    ContentTail(r);
    SplitAround(c, r.timestamp);
    BodyShape(r);
  }

  lemma BodyShape(r: Record)
    ensures Body(r) == Content(r) + (" ; " + r.timestamp)
  {
  }

  /** A stripped line that splits as `c`'s parts followed by one more field
      parses as `c` read as content, with that field as the timestamp. */
  lemma ParseOfSplit(line: string, c: string, stamp: string)
    requires Strip(line) == line
    requires Split(line, " ; ") == Split(c, " ; ") + [stamp]
    ensures ParseLine(line) == Some(ParseContent(c, stamp))
  {
    var parts := Split(line, " ; ");
    assert parts[..|parts| - 1] == Split(c, " ; ");
    assert line != "";
  }

  /** The last `" ; "` field of a storable line is its timestamp and the rest
      is its content. */
  lemma ParseBody(r: Record)
    requires Storable(r)
    ensures ParseLine(Body(r)) == Some(ParseContent(Content(r), r.timestamp))
  {
    var c := Content(r);
    assert Strip(Body(r)) == Body(r) by {
      BodyIsStripped(r);
    }
    SplitBody(r);
    ParseOfSplit(Body(r), c, r.timestamp);
  }

  /** The content of a storable record reads back as its sender, text and kind. */
  lemma ParseContentOfRecord(r: Record)
    requires Storable(r)
    ensures ParseContent(Content(r), r.timestamp) == r
  {
    if r.isAction {
      ActionContentHasNoSemicolonSpace(r);
      assert NoChar(r.sender, ' ') by {
        forall k | 0 <= k < |r.sender| ensures r.sender[k] != ' ' {
          assert !IsSpace(r.sender[k]);
        }
      }
      FirstAfter(r.sender, " ", r.text);
    } else {
      FirstAfter(r.sender, "; ", r.text);
    }
  }

  /** Round trip of one line: parsing what `save_message_locally` wrote gives
      back the sender, text, action flag and timestamp. */
  lemma ParseFormatted(r: Record)
    requires Storable(r)
    ensures ParseLine(Body(r)) == Some(r)
  {
    ParseBody(r);
    ParseContentOfRecord(r);
  }

  // ---------------------------------------------------------------------
  // Whole files

  /** A line without breaks followed by `\n` is read as exactly that line. */
  lemma ReadLinesOfLine(b: string, rest: string)
    requires NoLineBreaks(b)
    ensures ReadLines(b + "\n" + rest) == [b] + ReadLines(rest)
  {
    var s := b + "\n" + rest;
    assert s[|b|] == '\n';
    assert forall k :: 0 <= k < |b| ==> s[k] == b[k];
    assert BreakAt(s) == |b|;
    assert s[..|b|] == b && s[|b| + 1..] == rest;
  }

  /** The first line break of `a + b` is the first line break of a
      terminated, non-empty `a`, and it has the same width. */
  lemma BreakInPrefix(a: string, b: string)
    requires Terminated(a) && a != ""
    ensures BreakAt(a) < |a|
    ensures BreakAt(a + b) == BreakAt(a)
    ensures BreakWidth(a + b, BreakAt(a)) == BreakWidth(a, BreakAt(a))
    ensures BreakAt(a) + BreakWidth(a, BreakAt(a)) <= |a|
  {
    var s := a + b;
    var i := BreakAt(a);
    assert IsLineBreak(a[|a| - 1]);
    assert forall k :: 0 <= k < |a| ==> s[k] == a[k];
    assert BreakAt(s) == i;
  }

  /** Text after the first line of a terminated `a` is terminated, and in
      `a + b` the first line and the remainder line up with `a`'s. */
  lemma AfterFirstLine(a: string, b: string, i: nat, w: nat)
    requires Terminated(a) && i + w <= |a|
    ensures Terminated(a[i + w..])
    ensures (a + b)[i + w..] == a[i + w..] + b
    ensures (a + b)[..i] == a[..i]
  {
    var a' := a[i + w..];
    if a' != "" {
      assert a'[|a'| - 1] == a[|a| - 1];
    }
  }

  /** Reading a file that ends on a line boundary and then more text reads
      the lines of each part, in order. */
  lemma {:induction false} ReadLinesAppend(a: string, b: string)
    requires Terminated(a)
    ensures ReadLines(a + b) == ReadLines(a) + ReadLines(b)
    decreases |a|
  {
    if a == "" {
      assert a + b == b;
    } else {
      BreakInPrefix(a, b);
      var i := BreakAt(a);
      var w := BreakWidth(a, i);
      AfterFirstLine(a, b, i, w);
      ReadLinesAppend(a[i + w..], b);
      ReadLinesAppendStep(a, b, i, w);
    }
  }

  /** One step of `ReadLines` on text that has a line break at `i`. */
  lemma ReadLinesCons(s: string, i: nat, w: nat)
    requires i < |s| && BreakAt(s) == i && w == BreakWidth(s, i)
    ensures ReadLines(s) == [s[..i]] + ReadLines(s[i + w..])
  {
  }

  /** The inductive step of `ReadLinesAppend`: both texts start with the
      same first line, and what follows it in `a + b` reads as the rest of
      `a` followed by `b`. */
  lemma ReadLinesAppendStep(a: string, b: string, i: nat, w: nat)
    requires i < |a| && BreakAt(a) == i && BreakAt(a + b) == i
    requires w == BreakWidth(a, i) && w == BreakWidth(a + b, i)
    requires (a + b)[..i] == a[..i] && (a + b)[i + w..] == a[i + w..] + b
    requires ReadLines(a[i + w..] + b) == ReadLines(a[i + w..]) + ReadLines(b)
    ensures ReadLines(a + b) == ReadLines(a) + ReadLines(b)
  {
    ReadLinesCons(a, i, w);
    ReadLinesCons(a + b, i, w);
    ConsAssoc(a[..i], ReadLines(a[i + w..]), ReadLines(b));
  }

  lemma ConsAssoc<T>(h: T, x: seq<T>, y: seq<T>)
    ensures [h] + (x + y) == ([h] + x) + y
  {
  }

  /** Collecting over a concatenation collects over each part. */
  lemma {:induction false} CollectAppend<A, B>(x: seq<A>, y: seq<A>, f: A -> Option<B>)
    ensures Collect(x + y, f) == Collect(x, f) + Collect(y, f)
    decreases |x|
  {
    if x == [] {
      assert x + y == y;
    } else {
      var t := x[1..];
      CollectAppend(t, y, f);
      assert (x + y)[0] == x[0] && (x + y)[1..] == t + y;
      if f(x[0]).Some? {
        var v := f(x[0]).value;
        assert Collect(x + y, f) == [v] + Collect(t + y, f);
        assert Collect(x, f) == [v] + Collect(t, f);
        assert [v] + (Collect(t, f) + Collect(y, f)) == [v] + Collect(t, f) + Collect(y, f);
      } else {
        assert Collect(x + y, f) == Collect(t + y, f);
        assert Collect(x, f) == Collect(t, f);
      }
    }
  }

  /** Parsing a list of lines parses each part of it. */
  lemma ParseLinesAppend(x: seq<string>, y: seq<string>)
    ensures ParseLines(x + y) == ParseLines(x) + ParseLines(y)
  {
    CollectAppend(x, y, ParseLine);
  }

  /** An element `f` rejects contributes nothing, wherever it sits. */
  lemma CollectSkip<A, B>(before: seq<A>, x: A, after: seq<A>, f: A -> Option<B>)
    requires f(x).None?
    ensures Collect(before + [x] + after, f) == Collect(before + after, f)
  {
    assert before + [x] + after == before + ([x] + after);
    CollectAppend(before, [x] + after, f);
    CollectAppend(before, after, f);
    assert ([x] + after)[1..] == after;
  }

  /** A blank line, or one with no `" ; "` once stripped, gives no record. */
  lemma JunkLine(junk: string)
    requires Strip(junk) == "" || !Contains(Strip(junk), " ; ")
    ensures ParseLine(junk) == None
  {
    if Strip(junk) == "" {
      assert !OccursAt(Strip(junk), " ; ", 0);
    }
  }

  /** Loading skips a blank line, or a line with no `" ; "`, without
      producing a record and without disturbing the records around it. */
  lemma SkippedLine(before: seq<string>, junk: string, after: seq<string>)
    requires Strip(junk) == "" || !Contains(Strip(junk), " ; ")
    ensures ParseLine(junk) == None
    ensures ParseLines(before + [junk] + after) == ParseLines(before + after)
  {
    JunkLine(junk);
    CollectSkip(before, junk, after, ParseLine);
  }

  /** Collecting over a list that starts with an accepted element. */
  lemma CollectCons<A, B>(x: A, xs: seq<A>, f: A -> Option<B>, y: B)
    requires f(x) == Some(y)
    ensures Collect([x] + xs, f) == [y] + Collect(xs, f)
  {
    assert ([x] + xs)[1..] == xs;
  }

  /** A storable record's line holds no line break. */
  lemma BodyHasNoBreaks(r: Record)
    requires Storable(r)
    ensures NoLineBreaks(Body(r))
  {
    var sep := if r.isAction then " " else "; ";
    assert NoLineBreaks(r.sender) by {
      forall k | 0 <= k < |r.sender| ensures !IsLineBreak(r.sender[k]) {
        assert !IsSpace(r.sender[k]);
      }
    }
    assert NoLineBreaks(sep) && NoLineBreaks(" ; ");
    ConcatNoBreaks(r.sender, sep);
    ConcatNoBreaks(r.sender + sep, r.text);
    ConcatNoBreaks(r.sender + sep + r.text, " ; ");
    ConcatNoBreaks(r.sender + sep + r.text + " ; ", r.timestamp);
    assert Body(r) == r.sender + sep + r.text + " ; " + r.timestamp;
  }

  lemma ConcatNoBreaks(a: string, b: string)
    requires NoLineBreaks(a) && NoLineBreaks(b)
    ensures NoLineBreaks(a + b)
  {
    forall k | 0 <= k < |a + b| ensures !IsLineBreak((a + b)[k]) {
      if k < |a| {
        assert (a + b)[k] == a[k];
      } else {
        assert (a + b)[k] == b[k - |a|];
      }
    }
  }

  /** A file whose first line is a storable record's line loads as that
      record followed by whatever the rest of the file loads as. */
  lemma LineThenParse(r: Record, rest: string)
    requires Storable(r)
    ensures ParseLines(ReadLines(Body(r) + "\n" + rest)) == [r] + ParseLines(ReadLines(rest))
  {
    BodyHasNoBreaks(r);
    ReadLinesOfLine(Body(r), rest);
    ParseFormatted(r);
    CollectCons(Body(r), ReadLines(rest), ParseLine, r);
  }

  /** The appended line is the record's line and a `\n`. */
  lemma FormatIsBody(r: Record)
    ensures FormatLine(r.sender, r.text, r.isAction, r.timestamp) == Body(r) + "\n"
  {
  }

  /** A file holding one storable record's line loads as that record. */
  lemma LineAlone(r: Record)
    requires Storable(r)
    ensures ParseLines(ReadLines(Body(r) + "\n")) == [r]
  {
    var b := Body(r);
    LineThenParse(r, "");
    assert b + "\n" + "" == b + "\n";
    assert ParseLines(ReadLines("")) == [];
    assert [r] + [] == [r];
  }

  /** With a positive limit, the history loaded after appending a storable
      message ends with that message. */
  lemma AppendThenShown(file: string, sender: string, text: string, isAction: bool, stamp: string, limit: int)
    requires Terminated(file) && Storable(Record(sender, text, isAction, stamp)) && limit >= 1
    ensures var shown := LoadHistory(Append(file, sender, text, isAction, stamp), limit);
            shown != [] && shown[|shown| - 1] == Record(sender, text, isAction, stamp)
  {
    var r := Record(sender, text, isAction, stamp);
    AppendThenParse(file, r);
    HistoryEndsWith(Append(file, sender, text, isAction, stamp), ParseLines(ReadLines(file)), r, limit);
  }

  /** Text of whole lines moved onto the end of a ledger file of whole
      lines loads after that file's records; so a message appended to the
      moved text is still shown last. */
  lemma MergedThenShown(target: string, moved: string, sender: string, text: string, isAction: bool, stamp: string, limit: int)
    requires Terminated(target) && Terminated(moved) && Storable(Record(sender, text, isAction, stamp)) && limit >= 1
    ensures ParseLines(ReadLines(target + Append(moved, sender, text, isAction, stamp)))
            == ParseLines(ReadLines(target)) + ParseLines(ReadLines(moved)) + [Record(sender, text, isAction, stamp)]
    ensures var shown := LoadHistory(target + Append(moved, sender, text, isAction, stamp), limit);
            shown != [] && shown[|shown| - 1] == Record(sender, text, isAction, stamp)
  {
    var r := Record(sender, text, isAction, stamp);
    var a := Append(moved, sender, text, isAction, stamp);
    AppendThenParse(moved, r);
    MergedParse(target, a, ParseLines(ReadLines(moved)), r);
    HistoryEndsWith(target + a, ParseLines(ReadLines(target)) + ParseLines(ReadLines(moved)), r, limit);
  }

  /** A file of whole lines followed by text that loads as `before` then `x`
      loads as its own records, `before`, then `x`. */
  lemma MergedParse(target: string, a: string, before: seq<Record>, x: Record)
    requires Terminated(target) && ParseLines(ReadLines(a)) == before + [x]
    ensures ParseLines(ReadLines(target + a)) == ParseLines(ReadLines(target)) + before + [x]
  {
    LoadAppend(target, a);
    AppendLast(ParseLines(ReadLines(target)), ParseLines(ReadLines(a)), before, x);
  }

  lemma AppendLast<T>(p: seq<T>, q: seq<T>, before: seq<T>, x: T)
    requires q == before + [x]
    ensures p + q == p + before + [x]
  {
  }

  /** A message appended to a file is shown last whether that file is then
      read in place or moved onto the end of another file of whole lines. */
  lemma MovedThenShown(file: string, target: string, moved: string, inPlace: bool,
                       sender: string, text: string, isAction: bool, stamp: string, limit: int)
    requires Terminated(moved) && (!inPlace ==> Terminated(target))
    requires Storable(Record(sender, text, isAction, stamp)) && limit >= 1
    requires file == (if inPlace then Append(moved, sender, text, isAction, stamp)
                      else target + Append(moved, sender, text, isAction, stamp))
    ensures LoadHistory(file, limit) != []
    ensures LoadHistory(file, limit)[|LoadHistory(file, limit)| - 1] == Record(sender, text, isAction, stamp)
  {
    if inPlace {
      AppendThenShown(moved, sender, text, isAction, stamp, limit);
    } else {
      MergedThenShown(target, moved, sender, text, isAction, stamp, limit);
    }
  }

  /** A file that loads as `before` then `x` shows `x` last. */
  lemma HistoryEndsWith(file: string, before: seq<Record>, x: Record, limit: int)
    requires limit >= 1 && ParseLines(ReadLines(file)) == before + [x]
    ensures var shown := LoadHistory(file, limit);
            shown != [] && shown[|shown| - 1] == x
  {
    RecentEndsWith(before, x, limit);
  }

  /** With a positive limit, the newest messages end with the newest one. */
  lemma RecentEndsWith<T>(before: seq<T>, x: T, limit: int)
    requires limit >= 1
    ensures var kept := Recent(before + [x], limit);
            kept != [] && kept[|kept| - 1] == x
  {
    var all := before + [x];
    SuffixLast(all, Min(limit, |all|));
  }

  /** Loading a terminated file followed by more text loads each part. */
  lemma LoadAppend(file: string, more: string)
    requires Terminated(file)
    ensures ParseLines(ReadLines(file + more)) == ParseLines(ReadLines(file)) + ParseLines(ReadLines(more))
  {
    ReadLinesAppend(file, more);
    ParseLinesAppend(ReadLines(file), ReadLines(more));
  }

  /** Appending a storable message to a ledger file adds exactly that record
      at the end of what the file loads as. */
  lemma AppendThenParse(file: string, r: Record)
    requires Terminated(file) && Storable(r)
    ensures ParseLines(ReadLines(Append(file, r.sender, r.text, r.isAction, r.timestamp)))
            == ParseLines(ReadLines(file)) + [r]
  {
    FormatIsBody(r);
    LoadAppend(file, Body(r) + "\n");
    LineAlone(r);
  }

  /** A rendered file is its first record's line, then the rest; it ends on a
      line boundary when the rest does. */
  lemma RenderCons(rs: seq<Record>)
    requires rs != []
    ensures Render(rs) == Body(rs[0]) + "\n" + Render(rs[1..])
    ensures Terminated(Render(rs[1..])) ==> Terminated(Render(rs))
  {
    FormatIsBody(rs[0]);
  }

  /** Round trip of a whole file: a ledger written by appending storable
      messages loads back as exactly those messages, in order. */
  lemma {:induction false} RenderThenParse(rs: seq<Record>)
    requires forall k :: 0 <= k < |rs| ==> Storable(rs[k])
    ensures Terminated(Render(rs))
    ensures ParseLines(ReadLines(Render(rs))) == rs
    decreases |rs|
  {
    if rs != [] {
      RenderThenParse(rs[1..]);
      RenderCons(rs);
      RenderThenParseStep(rs);
    }
  }

  /** The inductive step of `RenderThenParse`. */
  lemma RenderThenParseStep(rs: seq<Record>)
    requires rs != [] && Storable(rs[0])
    requires ParseLines(ReadLines(Render(rs[1..]))) == rs[1..]
    ensures ParseLines(ReadLines(Render(rs))) == rs
  {
    RenderCons(rs);
    ConsParse(rs[0], Render(rs[1..]), rs[1..]);
    HeadTail(rs);
  }

  lemma HeadTail<T>(s: seq<T>)
    requires s != []
    ensures [s[0]] + s[1..] == s
  {
  }

  /** A storable record's line in front of text that loads as `tail` loads
      as that record, then `tail`. */
  lemma ConsParse(h: Record, rest: string, tail: seq<Record>)
    requires Storable(h) && ParseLines(ReadLines(rest)) == tail
    ensures ParseLines(ReadLines(Body(h) + "\n" + rest)) == [h] + tail
  {
    LineThenParse(h, rest);
  }

  /** Loading a ledger written from storable messages returns the newest
      `limit` of them in file order (all of them when there are fewer). */
  lemma LoadKeepsNewest(rs: seq<Record>, limit: int)
    requires forall k :: 0 <= k < |rs| ==> Storable(rs[k])
    requires limit >= 1
    ensures LoadHistory(Render(rs), limit) == rs[|rs| - Min(limit, |rs|)..]
    ensures |LoadHistory(Render(rs), limit)| == Min(limit, |rs|)
  {
    RenderThenParse(rs);
  }
}

=== FILE: lists.dfy ===
/** Python list operations shared by the client and the server models. */
module Lists {

  /** `list.remove(x)`: drops the first occurrence of `x`. */
  function RemoveFirst<T(==)>(xs: seq<T>, x: T): (r: seq<T>)
    requires x in xs
    ensures |r| == |xs| - 1
    ensures multiset(r) == multiset(xs) - multiset{x}
    decreases |xs|
  {
    assert xs == [xs[0]] + xs[1..];
    if xs[0] == x then xs[1..]
    else [xs[0]] + RemoveFirst(xs[1..], x)
  }

  /** `a` is `b` with some items left out, in `b`'s order. */
  predicate InOrder<T(==)>(a: seq<T>, b: seq<T>)
    decreases |b|
  {
    if a == [] then true
    else if b == [] then false
    else (a[0] == b[0] && InOrder(a[1..], b[1..])) || InOrder(a, b[1..])
  }

  predicate Distinct<T(==)>(xs: seq<T>) {
    forall i, j :: 0 <= i < j < |xs| ==> xs[i] != xs[j]
  }

  /** In a list without repeats, each element occurs once. */
  lemma {:induction false} DistinctCount<T>(xs: seq<T>, x: T)
    requires Distinct(xs) && x in xs
    ensures multiset(xs)[x] == 1
    decreases |xs|
  {
    assert xs == [xs[0]] + xs[1..];
    if xs[0] == x {
      assert x !in xs[1..];
    } else {
      DistinctCount(xs[1..], x);
    }
  }

  /** Removing from a list without repeats keeps it without repeats. */
  lemma {:induction false} RemoveFirstDistinct<T>(xs: seq<T>, x: T)
    requires Distinct(xs) && x in xs
    ensures Distinct(RemoveFirst(xs, x))
    decreases |xs|
  {
    if xs[0] != x {
      var tail := xs[1..];
      var t := RemoveFirst(tail, x);
      assert Distinct(tail);
      RemoveFirstDistinct(tail, x);
      assert xs[0] !in tail;
      assert xs[0] !in t by {
        if xs[0] in t {
          RemoveFirstInside(tail, x, xs[0]);
        }
      }
      ConsDistinct(xs[0], t);
    }
  }

  /** What is left after a removal was in the list. */
  lemma RemoveFirstInside<T>(xs: seq<T>, x: T, y: T)
    requires x in xs && y in RemoveFirst(xs, x)
    ensures y in xs
  {
    assert multiset(RemoveFirst(xs, x))[y] > 0;
  }

  /** A new element in front of a list without repeats adds none. */
  lemma ConsDistinct<T>(h: T, t: seq<T>)
    requires Distinct(t) && h !in t
    ensures Distinct([h] + t)
  {
    var r := [h] + t;
    forall i, j | 0 <= i < j < |r| ensures r[i] != r[j] {
      assert r[j] == t[j - 1];
      if i > 0 {
        assert r[i] == t[i - 1];
      }
    }
  }

  /** Removing an element leaves every other element where membership is concerned. */
  lemma RemoveFirstOthers<T>(xs: seq<T>, x: T, y: T)
    requires x in xs && y != x
    ensures y in RemoveFirst(xs, x) <==> y in xs
  {
    var r := RemoveFirst(xs, x);
    assert multiset(r)[y] == multiset(xs)[y];
    assert y in r <==> multiset(r)[y] > 0;
    assert y in xs <==> multiset(xs)[y] > 0;
  }
}

=== FILE: registry.dfy ===
/** The server's conversation registry (`chats.json`): creating and deleting
    conversations, the admin-only group operations, and the per-user chat
    list with its one-off migration of groups saved before groups had an
    admin.

    The registry is a map from chat id to conversation together with the
    order of its keys, because the file is a JSON object whose key order
    decides which existing private chat `create_chat` finds first and the
    order of the chat list. Notifications to online members are not modelled. */
module Registry {
  import opened Wrappers
  import opened Text
  import opened Lists
  import opened Domain

  /** The `admin` field: missing (groups saved before it existed), `null`
      (private chats), or a user name. */
  datatype AdminSlot = NoField | NullAdmin | Admin(user: User)

  datatype Chat = Chat(kind: ChatKind, name: string, participants: seq<User>, createdBy: Option<User>, admin: AdminSlot)

  datatype Registry = Registry(chats: map<ChatId, Chat>, order: seq<ChatId>)

  /** `order` lists every key once. */
  predicate Ordered(reg: Registry) {
    && (forall i, j :: 0 <= i < j < |reg.order| ==> reg.order[i] != reg.order[j])
    && (forall id :: id in reg.chats ==> id in reg.order)
    && (forall k :: 0 <= k < |reg.order| ==> reg.order[k] in reg.chats)
  }

  /** Every named admin is one of the conversation's participants. */
  predicate AdminsInside(reg: Registry) {
    forall id :: id in reg.chats && reg.chats[id].admin.Admin? ==>
      reg.chats[id].admin.user in reg.chats[id].participants
  }

  predicate Valid(reg: Registry) {
    Ordered(reg) && AdminsInside(reg)
  }

  function ToSet(xs: seq<User>): set<User> {
    set x | x in xs
  }

  /** `chats_data[chat_id] = ...`: a new key goes to the end, an existing
      key keeps its place. */
  function Put(reg: Registry, id: ChatId, c: Chat): (r: Registry)
    ensures r.chats == reg.chats[id := c]
    ensures Ordered(reg) ==> Ordered(r)
  {
    Registry(reg.chats[id := c], if id in reg.chats then reg.order else reg.order + [id])
  }

  /** `del chats_data[chat_id]`. */
  function Remove(reg: Registry, id: ChatId): (r: Registry)
    ensures r.chats == reg.chats - {id}
    ensures Ordered(reg) ==> Ordered(r)
    ensures AdminsInside(reg) ==> AdminsInside(r)
  {
    var order := FilterOut(reg.order, id);
    assert forall k :: 0 <= k < |order| ==> order[k] in order;
    Registry(reg.chats - {id}, order)
  }

  function FilterOut(xs: seq<ChatId>, id: ChatId): (r: seq<ChatId>)
    ensures forall x :: x in r <==> x in xs && x != id
    ensures (forall i, j :: 0 <= i < j < |xs| ==> xs[i] != xs[j]) ==>
            (forall i, j :: 0 <= i < j < |r| ==> r[i] != r[j])
    decreases |xs|
  {
    if xs == [] then []
    else if xs[0] == id then FilterOut(xs[1..], id)
    else
      var rest := FilterOut(xs[1..], id);
      assert forall k :: 0 <= k < |rest| ==> rest[k] in xs[1..];
      [xs[0]] + rest
  }

  // ---------------------------------------------------------------------
  // Creating a conversation

  /** Index in `order` of the first private chat whose participants form
      the set `people`. */
  function FindPrivate(reg: Registry, people: set<User>, from: nat): (r: Option<nat>)
    requires from <= |reg.order|
    ensures r.Some? ==> from <= r.value < |reg.order| && MatchesPrivate(reg, reg.order[r.value], people)
    ensures r.Some? ==> forall j :: from <= j < r.value ==> !MatchesPrivate(reg, reg.order[j], people)
    ensures r.None? ==> forall j :: from <= j < |reg.order| ==> !MatchesPrivate(reg, reg.order[j], people)
    decreases |reg.order| - from
  {
    if from == |reg.order| then None
    else if MatchesPrivate(reg, reg.order[from], people) then Some(from)
    else FindPrivate(reg, people, from + 1)
  }

  predicate MatchesPrivate(reg: Registry, id: ChatId, people: set<User>) {
    id in reg.chats && reg.chats[id].kind == Private && ToSet(reg.chats[id].participants) == people
  }

  datatype Created = Created(reg: Registry, id: ChatId, existing: bool)

  /** The participant list `create_chat` works with: the creator is added
      at the end unless already listed. */
  function WithCreator(participants: seq<User>, user: User): (ps: seq<User>)
    ensures user in ps
    ensures ToSet(ps) == ToSet(participants) + {user}
    ensures |ps| == |participants| + (if user in participants then 0 else 1)
  {
    if user in participants then participants else participants + [user]
  }

  /** `create_chat`. `newId` is the id minted from the clock. A private chat
      needs exactly two listed participants, a group two or more and a
      name. A private chat between the same people as an existing one
      returns the first such chat instead. A new chat records its creator;
      a group's admin is its creator, any other chat has a `null` admin and
      no name. */
  function Create(reg: Registry, user: User, participants: seq<User>, kind: ChatKind, name: string, newId: ChatId)
    : (r: Result<Created, ApiError>)
    ensures var ps := WithCreator(participants, user);
      r.Failure? <==> (kind == Private && |ps| != 2) || (kind == Group && (|ps| < 2 || name == ""))
    ensures var ps := WithCreator(participants, user);
      && (kind == Private && |ps| != 2 ==> r == Failure(ApiError(400, "Private chat must have exactly 2 participants")))
      && (kind == Group && |ps| < 2 ==> r == Failure(ApiError(400, "Group must have at least 2 participants")))
      && (kind == Group && |ps| >= 2 && name == "" ==> r == Failure(ApiError(400, "Group name required")))
    ensures r.Success? ==> r.value.id in r.value.reg.chats && user in r.value.reg.chats[r.value.id].participants
    ensures r.Success? && r.value.existing ==>
      r.value.reg == reg && kind == Private && MatchesPrivate(reg, r.value.id, ToSet(participants) + {user})
    ensures r.Success? && !r.value.existing ==>
      && r.value.id == newId
      && r.value.reg == Put(reg, newId, Chat(kind, if kind == Group then name else "",
                                             WithCreator(participants, user), Some(user),
                                             if kind == Group then Admin(user) else NullAdmin))
      && (kind == Private ==> forall j :: 0 <= j < |reg.order| ==>
            !MatchesPrivate(reg, reg.order[j], ToSet(participants) + {user}))
  {
    var ps := WithCreator(participants, user);
    if kind == Private && |ps| != 2 then Failure(ApiError(400, "Private chat must have exactly 2 participants"))
    else if kind == Group && |ps| < 2 then Failure(ApiError(400, "Group must have at least 2 participants"))
    else if kind == Group && name == "" then Failure(ApiError(400, "Group name required"))
    else
      var found := if kind == Private then FindPrivate(reg, ToSet(ps), 0) else None;
      match found
      case Some(i) =>
        assert user in ToSet(reg.chats[reg.order[i]].participants);
        Success(Created(reg, reg.order[i], true))
      case None =>
        var c := Chat(kind, if kind == Group then name else "", ps, Some(user),
                      if kind == Group then Admin(user) else NullAdmin);
        Success(Created(Put(reg, newId, c), newId, false))
  }

  /** The private chat a second request for the same pair finds is the
      first one in the registry's order. */
  lemma ExistingIsFirst(reg: Registry, user: User, participants: seq<User>, newId: ChatId)
    requires Create(reg, user, participants, Private, "", newId).Success?
    requires Create(reg, user, participants, Private, "", newId).value.existing
    ensures var id := Create(reg, user, participants, Private, "", newId).value.id;
            exists i :: 0 <= i < |reg.order| && reg.order[i] == id
              && forall j :: 0 <= j < i ==> !MatchesPrivate(reg, reg.order[j], ToSet(participants) + {user})
  {
    var ps := WithCreator(participants, user);
    var i := FindPrivate(reg, ToSet(ps), 0).value;
    assert reg.order[i] == Create(reg, user, participants, Private, "", newId).value.id;
  }

  // ---------------------------------------------------------------------
  // Deleting and the group operations

  /** `delete_chat`: any participant may delete a conversation. */
  function DeleteChat(reg: Registry, user: User, id: ChatId): (r: Result<Registry, ApiError>)
    ensures id !in reg.chats ==> r == Failure(ApiError(404, "Chat not found"))
    ensures id in reg.chats && user !in reg.chats[id].participants ==> r == Failure(ApiError(403, "Not authorized"))
    ensures r.Success? <==> id in reg.chats && user in reg.chats[id].participants
    ensures r.Success? ==> r.value.chats == reg.chats - {id}
  {
    if id !in reg.chats then Failure(ApiError(404, "Chat not found"))
    else if user !in reg.chats[id].participants then Failure(ApiError(403, "Not authorized"))
    else Success(Remove(reg, id))
  }

  /** The check every group operation starts with: the chat exists and the
      caller is its admin (a missing or `null` admin refuses everybody). */
  function AdminCheck(reg: Registry, user: User, id: ChatId): (r: Option<ApiError>)
    ensures r.None? <==> id in reg.chats && reg.chats[id].admin == Admin(user)
    ensures id !in reg.chats ==> r == Some(ApiError(404, "Chat not found"))
    ensures id in reg.chats && reg.chats[id].admin != Admin(user) ==> r == Some(ApiError(403, "Not authorized"))
  {
    if id !in reg.chats then Some(ApiError(404, "Chat not found"))
    else if reg.chats[id].admin != Admin(user) then Some(ApiError(403, "Not authorized"))
    else None
  }

  /** `add_group_member`: the admin adds a user not yet listed; adding a
      listed user changes nothing. */
  function AddMember(reg: Registry, user: User, id: ChatId, member: User): (r: Result<Registry, ApiError>)
    ensures r.Failure? <==> AdminCheck(reg, user, id).Some?
    ensures r.Failure? ==> r.error == AdminCheck(reg, user, id).value
    ensures r.Success? && member in reg.chats[id].participants ==> r.value == reg
    ensures r.Success? && member !in reg.chats[id].participants ==>
      r.value == Put(reg, id, reg.chats[id].(participants := reg.chats[id].participants + [member]))
  {
    match AdminCheck(reg, user, id)
    case Some(e) => Failure(e)
    case None =>
      var c := reg.chats[id];
      if member in c.participants then Success(reg)
      else Success(Put(reg, id, c.(participants := c.participants + [member])))
  }

  /** `remove_group_member`: the admin removes the first occurrence of a
      listed user other than the admin; an unlisted user changes nothing. */
  function RemoveMember(reg: Registry, user: User, id: ChatId, member: User): (r: Result<Registry, ApiError>)
    ensures AdminCheck(reg, user, id).Some? ==> r == Failure(AdminCheck(reg, user, id).value)
    ensures AdminCheck(reg, user, id).None? && member == user ==> r == Failure(ApiError(400, "Cannot remove admin"))
    ensures r.Success? <==> AdminCheck(reg, user, id).None? && member != user
    ensures r.Success? && member !in reg.chats[id].participants ==> r.value == reg
    ensures r.Success? && member in reg.chats[id].participants ==>
      r.value == Put(reg, id, reg.chats[id].(participants := RemoveFirst(reg.chats[id].participants, member)))
  {
    match AdminCheck(reg, user, id)
    case Some(e) => Failure(e)
    case None =>
      var c := reg.chats[id];
      if member == user then Failure(ApiError(400, "Cannot remove admin"))
      else if member in c.participants then Success(Put(reg, id, c.(participants := RemoveFirst(c.participants, member))))
      else Success(reg)
  }

  /** `rename_group`: the name is stripped and must not be empty (checked
      before the chat is looked up); only the admin may rename. */
  function Rename(reg: Registry, user: User, id: ChatId, newName: string): (r: Result<Registry, ApiError>)
    ensures Strip(newName) == "" ==> r == Failure(ApiError(400, "Name required"))
    ensures Strip(newName) != "" && AdminCheck(reg, user, id).Some? ==> r == Failure(AdminCheck(reg, user, id).value)
    ensures r.Success? ==> r.value == Put(reg, id, reg.chats[id].(name := Strip(newName)))
    ensures r.Success? <==> Strip(newName) != "" && AdminCheck(reg, user, id).None?
  {
    var n := Strip(newName);
    if n == "" then Failure(ApiError(400, "Name required"))
    else match AdminCheck(reg, user, id)
      case Some(e) => Failure(e)
      case None => Success(Put(reg, id, reg.chats[id].(name := n)))
  }

  /** The system message that announces an admin change. */
  function TransferText(oldAdmin: User, newAdmin: User): string {
    oldAdmin + " transferred admin rights to " + newAdmin
  }

  /** `transfer_admin`: the admin hands the role to a listed participant;
      only `admin` changes. The second result is the notice sent to the
      members. */
  function Transfer(reg: Registry, user: User, id: ChatId, newAdmin: User): (r: Result<(Registry, string), ApiError>)
    ensures AdminCheck(reg, user, id).Some? ==> r == Failure(AdminCheck(reg, user, id).value)
    ensures AdminCheck(reg, user, id).None? && newAdmin !in reg.chats[id].participants ==>
      r == Failure(ApiError(400, "User not in group"))
    ensures r.Success? <==> AdminCheck(reg, user, id).None? && newAdmin in reg.chats[id].participants
    ensures r.Success? ==> r.value.0 == Put(reg, id, reg.chats[id].(admin := Admin(newAdmin)))
    ensures r.Success? ==> r.value.1 == TransferText(user, newAdmin)
  {
    match AdminCheck(reg, user, id)
    case Some(e) => Failure(e)
    case None =>
      var c := reg.chats[id];
      if newAdmin !in c.participants then Failure(ApiError(400, "User not in group"))
      else Success((Put(reg, id, c.(admin := Admin(newAdmin))), TransferText(user, newAdmin)))
  }

  /** `delete_group`: only the admin may delete. */
  function DeleteGroup(reg: Registry, user: User, id: ChatId): (r: Result<Registry, ApiError>)
    ensures r.Failure? <==> AdminCheck(reg, user, id).Some?
    ensures r.Failure? ==> r.error == AdminCheck(reg, user, id).value
    ensures r.Success? ==> r.value.chats == reg.chats - {id}
  {
    match AdminCheck(reg, user, id)
    case Some(e) => Failure(e)
    case None => Success(Remove(reg, id))
  }

  /** Every operation keeps the keys listed once and each admin among the
      participants. */
  lemma CreateKeepsValid(reg: Registry, user: User, participants: seq<User>, kind: ChatKind, name: string, newId: ChatId)
    requires Valid(reg)
    ensures var r := Create(reg, user, participants, kind, name, newId);
            r.Success? ==> Valid(r.value.reg)
  {
  }

  lemma DeleteKeepsValid(reg: Registry, user: User, id: ChatId)
    requires Valid(reg)
    ensures DeleteChat(reg, user, id).Success? ==> Valid(DeleteChat(reg, user, id).value)
    ensures DeleteGroup(reg, user, id).Success? ==> Valid(DeleteGroup(reg, user, id).value)
  {
  }

  lemma AddKeepsValid(reg: Registry, user: User, id: ChatId, member: User)
    requires Valid(reg)
    ensures AddMember(reg, user, id, member).Success? ==> Valid(AddMember(reg, user, id, member).value)
  {
  }

  lemma RenameKeepsValid(reg: Registry, user: User, id: ChatId, newName: string)
    requires Valid(reg)
    ensures Rename(reg, user, id, newName).Success? ==> Valid(Rename(reg, user, id, newName).value)
  {
  }

  lemma TransferKeepsValid(reg: Registry, user: User, id: ChatId, newAdmin: User)
    requires Valid(reg)
    ensures Transfer(reg, user, id, newAdmin).Success? ==> Valid(Transfer(reg, user, id, newAdmin).value.0)
  {
  }

  /** Removing a member cannot remove the admin: the admin is the caller,
      and every other name keeps its membership. */
  lemma RemoveKeepsValid(reg: Registry, user: User, id: ChatId, member: User)
    requires Valid(reg)
    ensures RemoveMember(reg, user, id, member).Success? ==> Valid(RemoveMember(reg, user, id, member).value)
  {
    var r := RemoveMember(reg, user, id, member);
    if r.Success? && member in reg.chats[id].participants {
      var c := reg.chats[id];
      RemoveFirstOthers(c.participants, member, user);
      var c' := c.(participants := RemoveFirst(c.participants, member));
      assert c'.admin == Admin(user) && user in c'.participants;
    }
  }

  /** Adding a member twice is adding it once. */
  lemma AddMemberIdempotent(reg: Registry, user: User, id: ChatId, member: User)
    requires AddMember(reg, user, id, member).Success?
    ensures AddMember(AddMember(reg, user, id, member).value, user, id, member)
            == AddMember(reg, user, id, member)
  {
  }

  // ---------------------------------------------------------------------
  // The chat list of one user

  /** What `get_chats` reports of one conversation. */
  datatype ChatView = ChatView(id: ChatId, kind: ChatKind, name: string, participants: seq<User>,
                               admin: Option<User>, createdBy: Option<User>)

  /** A group saved without an `admin` field gets its creator, or its first
      participant when no creator was saved. */
  function Migrate(c: Chat): (c': Chat)
    requires c.participants != []
    ensures c'.kind == c.kind && c'.name == c.name && c'.participants == c.participants && c'.createdBy == c.createdBy
    ensures c.kind == Group && c.admin == NoField ==> c'.admin == Admin(c.createdBy.GetOr(c.participants[0]))
    ensures !(c.kind == Group && c.admin == NoField) ==> c' == c
  {
    if c.kind == Group && c.admin == NoField then c.(admin := Admin(c.createdBy.GetOr(c.participants[0]))) else c
  }

  function ViewOf(id: ChatId, c: Chat): ChatView {
    ChatView(id, c.kind, c.name, c.participants, if c.admin.Admin? then Some(c.admin.user) else None, c.createdBy)
  }

  predicate Sees(reg: Registry, user: User, id: ChatId) {
    id in reg.chats && user in reg.chats[id].participants
  }

  /** The registry after `get_chats` saved its migrations: every group the
      user belongs to has been migrated, nothing else changed. */
  function Migrated(reg: Registry, user: User): (r: Registry)
    ensures r.order == reg.order && r.chats.Keys == reg.chats.Keys
    ensures forall id :: Sees(reg, user, id) ==> r.chats[id] == Migrate(reg.chats[id])
    ensures forall id :: id in reg.chats && !Sees(reg, user, id) ==> r.chats[id] == reg.chats[id]
  {
    Registry(map id | id in reg.chats :: if user in reg.chats[id].participants then Migrate(reg.chats[id]) else reg.chats[id],
             reg.order)
  }

  /** The chat ids of a list of views, in list order. */
  function IdsOf(vs: seq<ChatView>): (ids: seq<ChatId>)
    ensures |ids| == |vs| && forall k :: 0 <= k < |vs| ==> ids[k] == vs[k].id
  {
    seq(|vs|, k requires 0 <= k < |vs| => vs[k].id)
  }

  /** The views of the chats in `ids` that `user` belongs to, in that order. */
  function Views(reg: Registry, user: User, ids: seq<ChatId>): (vs: seq<ChatView>)
    ensures |vs| <= |ids|
    ensures forall k :: 0 <= k < |vs| ==> vs[k].id in ids && Sees(reg, user, vs[k].id)
    ensures InOrder(IdsOf(vs), ids)
    decreases |ids|
  {
    if ids == [] then []
    else
      var rest := Views(reg, user, ids[1..]);
      if Sees(reg, user, ids[0]) then
        var vs := [ViewOf(ids[0], reg.chats[ids[0]])] + rest;
        assert IdsOf(vs)[1..] == IdsOf(rest);
        vs
      else rest
  }

  /** `get_chats`: the chats the user takes part in, in registry order,
      after migrating the user's groups that lack an admin; the second result
      is the registry as saved. */
  function GetChats(reg: Registry, user: User): (r: (seq<ChatView>, Registry))
    ensures r.1 == Migrated(reg, user)
    ensures forall k :: 0 <= k < |r.0| ==> Sees(reg, user, r.0[k].id)
    ensures InOrder(IdsOf(r.0), reg.order)
  {
    var m := Migrated(reg, user);
    (Views(m, user, m.order), m)
  }

  /** Every conversation of `ids` the user takes part in has a view. */
  lemma {:induction false} ViewsComplete(reg: Registry, user: User, ids: seq<ChatId>, id: ChatId)
    requires id in ids && Sees(reg, user, id)
    ensures exists k :: 0 <= k < |Views(reg, user, ids)| && Views(reg, user, ids)[k].id == id
    decreases |ids|
  {
    var vs := Views(reg, user, ids);
    if ids[0] == id {
      assert vs[0].id == id;
    } else {
      ViewsComplete(reg, user, ids[1..], id);
      var rest := Views(reg, user, ids[1..]);
      var k :| 0 <= k < |rest| && rest[k].id == id;
      if Sees(reg, user, ids[0]) {
        assert vs[k + 1] == rest[k];
      } else {
        assert vs[k] == rest[k];
      }
    }
  }

  /** Every conversation the user takes part in is in the list (and, by
      `GetChats`'s contract, nothing else is). */
  lemma GetChatsExact(reg: Registry, user: User, id: ChatId)
    requires Ordered(reg) && Sees(reg, user, id)
    ensures var vs := GetChats(reg, user).0;
            exists k :: 0 <= k < |vs| && vs[k].id == id
  {
    var m := Migrated(reg, user);
    ViewsComplete(m, user, m.order, id);
  }

  /** Every group in the list names an admin, unless its saved admin is
      `null` (which `create_chat` never writes for a group). */
  lemma GetChatsAdmins(reg: Registry, user: User, k: nat)
    requires k < |GetChats(reg, user).0|
    requires GetChats(reg, user).0[k].kind == Group
    ensures var v := GetChats(reg, user).0[k];
            v.admin.Some? || reg.chats[v.id].admin == NullAdmin
  {
    var m := Migrated(reg, user);
    ViewsAreViews(m, user, m.order, k);
  }

  /** Each view is the view of a chat of the registry it was taken from. */
  lemma {:induction false} ViewsAreViews(reg: Registry, user: User, ids: seq<ChatId>, k: nat)
    requires k < |Views(reg, user, ids)|
    ensures var v := Views(reg, user, ids)[k];
            v.id in reg.chats && v == ViewOf(v.id, reg.chats[v.id])
    decreases |ids|
  {
    if ids != [] {
      if Sees(reg, user, ids[0]) {
        if k > 0 {
          ViewsAreViews(reg, user, ids[1..], k - 1);
        }
      } else {
        ViewsAreViews(reg, user, ids[1..], k);
      }
    }
  }

  /** The migration keeps the admin among the participants when the saved
      creator is one of them or no creator was saved. */
  lemma MigrationKeepsValid(reg: Registry, user: User)
    requires Valid(reg)
    requires forall id :: id in reg.chats && reg.chats[id].createdBy.Some? ==>
               reg.chats[id].createdBy.value in reg.chats[id].participants
    ensures Valid(Migrated(reg, user))
  {
  }

  /** Without that, migration can name an admin who is not a member. */
  lemma MigrationOutsider(user: User, creator: User)
    requires user != creator
    ensures var reg := Registry(map["g" := Chat(Group, "team", [user], Some(creator), NoField)], ["g"]);
            Valid(reg) && !AdminsInside(Migrated(reg, user))
  {
    var reg := Registry(map["g" := Chat(Group, "team", [user], Some(creator), NoField)], ["g"]);
    assert Migrated(reg, user).chats["g"].admin == Admin(creator);
  }
}

=== FILE: sessions.dfy ===
/** The server's two presence maps: `online_users` (user to the socket
    session that speaks for them) and `user_sessions` (every authenticated
    socket session to its user), as `authenticate` and `disconnect` change
    them, and who is told about it. */
module Sessions {
  import opened Wrappers
  import opened Domain
  import opened Lists
  import Friends

  /** A Socket.IO session id (`request.sid`). */
  type Sid = string

  datatype Presence = Presence(online: map<User, Sid>, sessions: map<Sid, User>)

  /** Every online user is reachable: the session `online` names for them is
      live and belongs to them. */
  predicate Consistent(p: Presence) {
    forall u | u in p.online :: p.online[u] in p.sessions && p.sessions[p.online[u]] == u
  }

  /** Every live session's user is online. */
  predicate Reachable(p: Presence) {
    forall s | s in p.sessions :: p.sessions[s] in p.online
  }

  /** `keys` is the order in which the friend list `l` iterates: each of
      its names, and nothing else. */
  predicate KeyOrder(l: map<User, Friends.Status>, keys: seq<User>) {
    (forall i :: 0 <= i < |keys| ==> keys[i] in l) && (forall x :: x in l ==> x in keys)
  }

  /** The accepted friends among `keys` (the user's list in stored order)
      that are online, in that order: who hears `user_online` or
      `user_offline`. */
  function Told(l: map<User, Friends.Status>, keys: seq<User>, online: map<User, Sid>): (r: seq<User>)
    requires forall i :: 0 <= i < |keys| ==> keys[i] in l
    ensures forall x :: x in r <==> x in keys && l[x] == Friends.Accepted && x in online
    ensures InOrder(r, keys)
    ensures |r| <= |keys|
  {
    if keys == [] then []
    else
      var rest := Told(l, keys[1..], online);
      assert forall y :: y in keys <==> y == keys[0] || y in keys[1..];
      if l[keys[0]] == Friends.Accepted && keys[0] in online then
        var r := [keys[0]] + rest;
        assert r[1..] == rest;
        r
      else rest
  }

  datatype Authenticated = Authenticated(presence: Presence, told: seq<User>)

  /** `authenticate`: `verified` is what the token check yields and `keys`
      the user's friend list in its stored order. An invalid token is
      refused (and the socket closed). Otherwise the session is bound to the
      user, the user is online under it, and exactly their accepted friends
      who are online are told. */
  function Authenticate(p: Presence, g: Friends.Graph, sid: Sid, verified: Option<User>, keys: seq<User>)
    : (r: Result<Authenticated, string>)
    requires verified.Some? ==> KeyOrder(Friends.ListOf(g, verified.value), keys)
    ensures verified.None? <==> r == Failure("Invalid token")
    ensures r.Success? ==>
              var u := verified.value;
              && r.value.presence.sessions == p.sessions[sid := u]
              && r.value.presence.online == p.online[u := sid]
              && (forall x :: x in r.value.told <==>
                    x in Friends.ListOf(g, u) && Friends.ListOf(g, u)[x] == Friends.Accepted
                    && x in r.value.presence.online)
              && InOrder(r.value.told, keys)
  {
    match verified
    case None => Failure("Invalid token")
    case Some(u) =>
      var p' := Presence(p.online[u := sid], p.sessions[sid := u]);
      Success(Authenticated(p', Told(Friends.ListOf(g, u), keys, p'.online)))
  }

  datatype Left = Left(presence: Presence, told: seq<User>)

  /** `disconnect` AS WRITTEN: a socket that never authenticated changes
      nothing; otherwise its session goes and its user goes offline, whether
      or not the session `online_users` holds for them is this one. */
  function DisconnectAsWritten(p: Presence, g: Friends.Graph, sid: Sid, keys: seq<User>): (r: Left)
    requires sid in p.sessions ==> KeyOrder(Friends.ListOf(g, p.sessions[sid]), keys)
    ensures sid !in p.sessions ==> r == Left(p, [])
    ensures sid in p.sessions ==>
              var l := Friends.ListOf(g, p.sessions[sid]);
              && r.presence.sessions == p.sessions - {sid}
              && r.presence.online == p.online - {p.sessions[sid]}
              && (forall x :: x in r.told <==> x in l && l[x] == Friends.Accepted && x in r.presence.online)
  {
    if sid !in p.sessions then Left(p, [])
    else
      var u := p.sessions[sid];
      var p' := Presence(p.online - {u}, p.sessions - {sid});
      Left(p', Told(Friends.ListOf(g, u), keys, p'.online))
  }

  /** A user who has reconnected (the new session `s2` already authenticated)
      and whose old session `s1` then drops is taken offline although `s2` is
      live: friends see them offline and messages to them are not delivered. */
  lemma StaleDisconnect()
    ensures var p := Presence(map["ann" := "s2"], map["s1" := "ann", "s2" := "ann"]);
            var r := DisconnectAsWritten(p, map[], "s1", []);
            && Consistent(p) && Reachable(p)
            && "s2" in r.presence.sessions && r.presence.sessions["s2"] == "ann"
            && "ann" !in r.presence.online
            && !Reachable(r.presence)
  {
    var p := Presence(map["ann" := "s2"], map["s1" := "ann", "s2" := "ann"]);
    var r := DisconnectAsWritten(p, map[], "s1", []);
    assert "s2" in r.presence.sessions;
  }

  /** `disconnect` as evidently intended: the user goes offline only when
      the closing session is the one `online_users` holds for them. */
  function Disconnect(p: Presence, g: Friends.Graph, sid: Sid, keys: seq<User>): (r: Left)
    requires sid in p.sessions ==> KeyOrder(Friends.ListOf(g, p.sessions[sid]), keys)
    ensures sid !in p.sessions ==> r == Left(p, [])
    ensures sid in p.sessions ==> r.presence.sessions == p.sessions - {sid}
    ensures sid in p.sessions ==>
              var u := p.sessions[sid];
              var l := Friends.ListOf(g, u);
              && (u in p.online && p.online[u] == sid ==>
                    && r.presence.online == p.online - {u}
                    && forall x :: x in r.told <==> x in l && l[x] == Friends.Accepted && x in r.presence.online)
              && (u !in p.online || p.online[u] != sid ==> r.presence.online == p.online && r.told == [])
  {
    if sid !in p.sessions then Left(p, [])
    else
      var u := p.sessions[sid];
      if u in p.online && p.online[u] == sid then
        var p' := Presence(p.online - {u}, p.sessions - {sid});
        Left(p', Told(Friends.ListOf(g, u), keys, p'.online))
      else Left(Presence(p.online, p.sessions - {sid}), [])
  }

  /** With the correction, a stale session's close leaves its user online
      under the live session. */
  lemma StaleDisconnectFixed()
    ensures var p := Presence(map["ann" := "s2"], map["s1" := "ann", "s2" := "ann"]);
            var r := Disconnect(p, map[], "s1", []);
            && "ann" in r.presence.online && r.presence.online["ann"] == "s2"
            && Reachable(r.presence)
  {
  }

  /** Both versions keep the online map pointing at live sessions of the
      right users. */
  lemma DisconnectKeepsConsistent(p: Presence, g: Friends.Graph, sid: Sid, keys: seq<User>)
    requires Consistent(p)
    requires sid in p.sessions ==> KeyOrder(Friends.ListOf(g, p.sessions[sid]), keys)
    ensures Consistent(Disconnect(p, g, sid, keys).presence)
    ensures Consistent(DisconnectAsWritten(p, g, sid, keys).presence)
  {
  }

  /** The correction keeps every user with a live session online, provided
      each user has at most one session besides a stale one that is not
      the one `online_users` names. The code as written does not (see
      `StaleDisconnect`). */
  lemma DisconnectKeepsReachable(p: Presence, g: Friends.Graph, sid: Sid, keys: seq<User>)
    requires Consistent(p) && Reachable(p)
    requires sid in p.sessions ==> KeyOrder(Friends.ListOf(g, p.sessions[sid]), keys)
    requires sid in p.sessions && p.sessions[sid] in p.online && p.online[p.sessions[sid]] == sid ==>
               forall s | s in p.sessions && s != sid :: p.sessions[s] != p.sessions[sid]
    ensures Reachable(Disconnect(p, g, sid, keys).presence)
  {
  }

  /** Authenticating a new session, or re-authenticating one as the same
      user, keeps both maps in step. A session re-authenticated as someone
      else leaves the first user pointing at a session that is no longer
      theirs. */
  lemma AuthenticateKeepsConsistent(p: Presence, g: Friends.Graph, sid: Sid, u: User, keys: seq<User>)
    requires Consistent(p) && Reachable(p)
    requires KeyOrder(Friends.ListOf(g, u), keys)
    requires sid !in p.sessions || p.sessions[sid] == u
    ensures var r := Authenticate(p, g, sid, Some(u), keys);
            r.Success? && Consistent(r.value.presence) && Reachable(r.value.presence)
  {
  }

  /** A session that switches user strands its first user. */
  lemma SwitchedSession()
    ensures var p := Presence(map["ann" := "s1"], map["s1" := "ann"]);
            var r := Authenticate(p, map[], "s1", Some("bob"), []);
            Consistent(p) && r.Success? && !Consistent(r.value.presence)
  {
    var p := Presence(map["ann" := "s1"], map["s1" := "ann"]);
    var r := Authenticate(p, map[], "s1", Some("bob"), []);
    assert "ann" in r.value.presence.online;
  }
}

=== FILE: text.dfy ===
/** The handful of Python `str` operations the ledger codec and the request
    handlers rely on, with their Python semantics: `isspace`, `strip`,
    `startswith`, `find`/`in`, `split(sep)`, `split(sep, 1)` and `join`. */
module Text {
  import opened Wrappers

  /** Python's `str.isspace` for one character: the characters `str.strip()`
      removes when called without arguments. */
  predicate IsSpace(c: char) {
    || c == ' '
    || ('\t' <= c <= '\r')
    || ('\U{1C}' <= c <= '\U{1F}')
    || c == '\U{85}' || c == '\U{A0}' || c == '\U{1680}'
    || ('\U{2000}' <= c <= '\U{200A}')
    || c == '\U{2028}' || c == '\U{2029}' || c == '\U{202F}' || c == '\U{205F}' || c == '\U{3000}'
  }

  /** A line terminator for Python's text-mode line iteration (universal newlines). */
  predicate IsLineBreak(c: char) {
    c == '\n' || c == '\r'
  }

  predicate NoSpaces(s: string) {
    forall k :: 0 <= k < |s| ==> !IsSpace(s[k])
  }

  predicate NoLineBreaks(s: string) {
    forall k :: 0 <= k < |s| ==> !IsLineBreak(s[k])
  }

  predicate NoChar(s: string, c: char) {
    forall k :: 0 <= k < |s| ==> s[k] != c
  }

  predicate StartsWith(s: string, prefix: string) {
    |prefix| <= |s| && s[..|prefix|] == prefix
  }

  predicate EndsWith(s: string, suffix: string) {
    |suffix| <= |s| && s[|s| - |suffix|..] == suffix
  }

  /** `s.lstrip()`: drops the leading whitespace and nothing else. */
  function TrimStart(s: string): (r: string)
    ensures |r| <= |s| && r == s[|s| - |r|..]
    ensures forall k :: 0 <= k < |s| - |r| ==> IsSpace(s[k])
    ensures r == [] || !IsSpace(r[0])
    decreases |s|
  {
    if |s| > 0 && IsSpace(s[0]) then TrimStart(s[1..]) else s
  }

  /** `s.rstrip()`: drops the trailing whitespace and nothing else. */
  function TrimEnd(s: string): (r: string)
    ensures |r| <= |s| && r == s[..|r|]
    ensures forall k :: |r| <= k < |s| ==> IsSpace(s[k])
    ensures r == [] || !IsSpace(r[|r| - 1])
    decreases |s|
  {
    if |s| > 0 && IsSpace(s[|s| - 1]) then TrimEnd(s[..|s| - 1]) else s
  }

  /** `s.strip()`: `s` without its leading and trailing whitespace. */
  function Strip(s: string): (r: string)
    ensures |r| <= |s|
    ensures r == [] || (!IsSpace(r[0]) && !IsSpace(r[|r| - 1]))
  {
    TrimEnd(TrimStart(s))
  }

  /** A string that does not start or end with whitespace is its own strip. */
  lemma StripOfTrimmed(s: string)
    requires s == [] || (!IsSpace(s[0]) && !IsSpace(s[|s| - 1]))
    ensures Strip(s) == s
  {
  }

  /** `pat` occurs in `s` starting at index `k`. */
  predicate OccursAt(s: string, pat: string, k: int) {
    0 <= k && k + |pat| <= |s| && s[k..k + |pat|] == pat
  }

  /** `s.find(pat, from)`, with "not found" as `None`. */
  function FindFrom(s: string, pat: string, from: nat): (r: Option<nat>)
    requires from <= |s|
    ensures r.Some? ==> from <= r.value && OccursAt(s, pat, r.value)
    ensures r.Some? ==> forall k :: from <= k < r.value ==> !OccursAt(s, pat, k)
    ensures r.None? ==> forall k :: from <= k ==> !OccursAt(s, pat, k)
    decreases |s| - from
  {
    if from + |pat| > |s| then None
    else if s[from..from + |pat|] == pat then Some(from)
    else FindFrom(s, pat, from + 1)
  }

  /** `s.find(pat)`: the first index where `pat` occurs. */
  function Find(s: string, pat: string): (r: Option<nat>)
    ensures r.Some? ==> OccursAt(s, pat, r.value) && forall k :: 0 <= k < r.value ==> !OccursAt(s, pat, k)
    ensures r.None? ==> forall k :: !OccursAt(s, pat, k)
  {
    FindFrom(s, pat, 0)
  }

  /** Python's `pat in s`. */
  predicate Contains(s: string, pat: string) {
    Find(s, pat).Some?
  }

  /** `sep.join(parts)`. */
  function Join(parts: seq<string>, sep: string): string
    decreases |parts|
  {
    if |parts| == 0 then ""
    else if |parts| == 1 then parts[0]
    else parts[0] + sep + Join(parts[1..], sep)
  }

  /** `s.split(sep)` for a non-empty separator: cut at each occurrence found by a
      left-to-right scan that never reuses characters of an occurrence already cut. */
  function Split(s: string, sep: string): (parts: seq<string>)
    requires |sep| > 0
    ensures |parts| >= 1
    ensures Join(parts, sep) == s
    ensures forall k :: 0 <= k < |parts| ==> !Contains(parts[k], sep)
    decreases |s|
  {
    match Find(s, sep)
    case None => [s]
    case Some(i) =>
      var head := s[..i];
      assert !Contains(head, sep) by {
        forall k | OccursAt(head, sep, k)
          ensures false
        {
          assert OccursAt(s, sep, k);
        }
      }
      var rest := Split(s[i + |sep|..], sep);
      assert s == head + sep + s[i + |sep|..];
      [head] + rest
  }

  /** `s.split(sep, 1)` when `sep in s`: the text before the first occurrence and the text after it. */
  function SplitOnce(s: string, sep: string): (r: (string, string))
    requires |sep| > 0 && Contains(s, sep)
    ensures s == r.0 + sep + r.1
    ensures !Contains(r.0, sep)
  {
    var i := Find(s, sep).value;
    var head := s[..i];
    assert !Contains(head, sep) by {
      forall k | OccursAt(head, sep, k)
        ensures false
      {
        assert OccursAt(s, sep, k);
      }
    }
    assert s == head + sep + s[i + |sep|..];
    (head, s[i + |sep|..])
  }

  /** An occurrence inside a piece of a concatenation is an occurrence in the whole. */
  lemma OccursShift(a: string, b: string, c: string, pat: string, k: int)
    requires OccursAt(b, pat, k)
    ensures OccursAt(a + b + c, pat, |a| + k)
  {
    assert (a + b + c)[|a| + k..|a| + k + |pat|] == b[k..k + |pat|];
  }

  /** The first occurrence is pinned down by an occurrence with none before it. */
  lemma FindIs(s: string, pat: string, i: nat)
    requires OccursAt(s, pat, i)
    requires forall k :: 0 <= k < i ==> !OccursAt(s, pat, k)
    ensures Find(s, pat) == Some(i)
  {
  }

  /** Occurrences that end inside `a` are the same in `a` and in `a + t`. */
  lemma OccursInPrefix(a: string, t: string, pat: string, k: nat)
    requires k + |pat| <= |a|
    ensures OccursAt(a + t, pat, k) <==> OccursAt(a, pat, k)
  {
    assert (a + t)[k..k + |pat|] == a[k..k + |pat|];
  }

  /** No occurrence of `" ; "` can start in the last two characters of `a`
      when `a` does not end in `" ;"`. */
  lemma NoStraddle(a: string, b: string, k: nat)
    requires !EndsWith(a, " ;")
    requires |a| - 2 <= k < |a|
    ensures !OccursAt(a + " ; " + b, " ; ", k)
  {
    var s := a + " ; " + b;
    var w := s[k..k + 3];
    if k == |a| - 1 {
      assert w[1] == ' ';
    } else {
      assert a[|a| - 2..] == [a[k], a[k + 1]];
      assert w[0] == a[k] && w[1] == a[k + 1];
    }
  }

  /** With no separator inside `a` and `a` not ending in `" ;"`, the first
      `" ; "` of `a + " ; " + b` is the one right after `a`. */
  lemma JointIsFirst(a: string, b: string)
    requires !EndsWith(a, " ;")
    requires !Contains(a, " ; ")
    ensures Find(a + " ; " + b, " ; ") == Some(|a|)
  {
    var s := a + " ; " + b;
    assert s[|a|..|a| + 3] == " ; ";
    forall k | 0 <= k < |a|
      ensures !OccursAt(s, " ; ", k)
    {
      if k + 3 <= |a| {
        OccursInPrefix(a, " ; " + b, " ; ", k);
        assert s == a + (" ; " + b);
      } else {
        NoStraddle(a, b, k);
      }
    }
    FindIs(s, " ; ", |a|);
  }

  /** An occurrence that is first in `a` stays first in any extension of `a`. */
  lemma FirstInPrefix(a: string, t: string, pat: string, i: nat)
    requires Find(a, pat) == Some(i)
    ensures Find(a + t, pat) == Some(i)
  {
    forall k | 0 <= k < i
      ensures !OccursAt(a + t, pat, k)
    {
      OccursInPrefix(a, t, pat, k);
    }
    OccursInPrefix(a, t, pat, i);
    FindIs(a + t, pat, i);
  }

  lemma DropConcat(x: string, y: string, i: nat)
    requires i <= |x|
    ensures (x + y)[i..] == x[i..] + y
  {
  }

  lemma TakeConcat(x: string, y: string, i: nat)
    requires i <= |x|
    ensures (x + y)[..i] == x[..i]
  {
  }

  /** One step of `Split`: cut at the first occurrence and split the rest. */
  lemma SplitStep(s: string, sep: string, i: nat)
    requires |sep| > 0 && Find(s, sep) == Some(i)
    ensures Split(s, sep) == [s[..i]] + Split(s[i + |sep|..], sep)
  {
  }

  /** The base case of `SplitAround`: no separator inside `a`. */
  lemma SplitAroundJoint(a: string, b: string)
    requires !EndsWith(a, " ;")
    requires !Contains(a, " ; ") && !Contains(b, " ; ")
    ensures Split(a + (" ; " + b), " ; ") == Split(a, " ; ") + [b]
  {
    var s := a + (" ; " + b);
    JointIsFirst(a, b);
    assert s == a + " ; " + b;
    SplitStep(s, " ; ", |a|);
    assert s[|a| + 3..] == b;
    assert s[..|a|] == a;
  }

  /** The inductive step of `SplitAround`: the first separator of `a` is cut
      first, and the rest is split as `a`'s remainder followed by `b`. */
  lemma SplitAroundStep(a: string, b: string, i: nat)
    requires Find(a, " ; ") == Some(i)
    requires Split(a[i + 3..] + (" ; " + b), " ; ") == Split(a[i + 3..], " ; ") + [b]
    ensures Split(a + (" ; " + b), " ; ") == Split(a, " ; ") + [b]
  {
    var t := " ; " + b;
    var s := a + t;
    FirstInPrefix(a, t, " ; ", i);
    SplitStep(s, " ; ", i);
    SplitStep(a, " ; ", i);
    DropConcat(a, t, i + 3);
    TakeConcat(a, t, i);
  }

  /** Splitting `a + sep + b` cuts at the separator between them, provided `b`
      holds no separator and the end of `a` cannot start an overlapping one
      (this is where `" ; "` needs `a` not to end in `" ;"`). */
  lemma {:induction false} SplitAround(a: string, b: string)
    requires !EndsWith(a, " ;")
    requires !Contains(b, " ; ")
    ensures Split(a + (" ; " + b), " ; ") == Split(a, " ; ") + [b]
    decreases |a|
  {
    match Find(a, " ; ")
    case None =>
      SplitAroundJoint(a, b);
    case Some(i) =>
      var a' := a[i + 3..];
      assert !EndsWith(a', " ;") by {
        if |a'| >= 2 {
          assert a[|a| - 2..] == a'[|a'| - 2..];
        }
      }
      SplitAround(a', b);
      SplitAroundStep(a, b, i);
  }
}

=== FILE: wrappers.dfy ===
/** Failure-compatible wrappers used throughout the model: an optional value and
    a result that carries either a value or an error. */
module Wrappers {

  datatype Option<+T> = None | Some(value: T) {

    /** The value, or `default` when absent (Python's `dict.get(key, default)` shape). */
    function GetOr(default: T): T {
      match this
      case Some(v) => v
      case None => default
    }
  }

  datatype Result<+R, +E> = Success(value: R) | Failure(error: E) {

    predicate IsFailure() {
      Failure?
    }

    function PropagateFailure<U>(): Result<U, E>
      requires Failure?
    {
      Failure(error)
    }

    function Extract(): R
      requires Success?
    {
      value
    }
  }
}
